=== FILE: README.md ===
# MovieArc in Dafny

MovieArc is a small movie-browsing web app backed by TMDB (The Movie
Database). It has two parts:

- **The proxy worker** (`worker/index.js`). It answers CORS preflights and
  holds the server's TMDB key. It forwards a request that carries `id` to
  TMDB's detail endpoint and a request that carries `query` to TMDB's search
  endpoint, then relays TMDB's answer.
- **The React client**, in two versions:
  - `src/App.tsx` sends every request through the worker.
  - `movie-arc/src/` calls TMDB directly with a key held in the browser. It
    has a result card (`MovieCard.tsx`) and a detail page
    (`MovieDetails.tsx`).

This project models the decision logic of those files as pure functions over
immutable values and proves properties of them:

- the worker's routing and relaying;
- the request URL each client action chooses;
- the guards for missing configuration;
- the effect of a fetch on the page state;
- the genre table and its cache;
- the strings the card and detail page derive from a movie.

| file | module | models |
|---|---|---|
| `values.dfy` | `Values` | optional values, JSON fields that may be `null` or missing, JavaScript truthiness |
| `strings.dfy` | `Strings` | `indexOf`, `split`, `join`, `slice(0, n)`, `trim`, integer rendering in template literals |
| `uri.dfy` | `Uri` | the query of a `URL` and `application/x-www-form-urlencoded` parsing (`url.searchParams`) |
| `tmdb.dfy` | `Tmdb` | the TMDB payloads the UI reads; how one `fetch` + `json()` ends |
| `worker.dfy` | `Worker` | `worker/index.js` |
| `home.dfy` | `Home` | the Home page state machine shared by both `App.tsx` files; the genre table and cache |
| `proxy_home.dfy` | `ProxyHome` | the URLs and guard of `src/App.tsx` |
| `direct_home.dfy` | `DirectHome` | the URLs and guard of `movie-arc/src/App.tsx` |
| `movie_card.dfy` | `MovieCard` | `movie-arc/src/MovieCard.tsx` |
| `movie_details.dfy` | `MovieDetails` | `movie-arc/src/MovieDetails.tsx` |
| `end_to_end.dfy` | `EndToEnd` | properties spanning several files |

The model has these inputs:

- **The outcome of a network request** is a parameter. For the client,
  `Fetched` covers a rejected `fetch`, a non-ok status, a body that is not
  JSON and a delivered body. For the worker, `UpstreamReply` covers only an
  upstream answer that arrives (see "Left out").
- **Configuration values** (`VITE_PROXY_BASE`, `VITE_TMDB_API_KEY`,
  `env.TMDB_API_KEY`) are `Option<string>` parameters.
- **`localStorage`** is the cached string, also an `Option<string>` parameter.
- **`encodeURIComponent` and URL percent-decoding** are the two function
  fields of a `UriCodec`. The model assumes only the four laws in `Uri.Lawful`:
  - the encoding of "" is "";
  - decoding undoes encoding;
  - an encoding holds no `&` or `#`;
  - text without `%` or `+` decodes to itself.
- **`JSON.parse` and `JSON.stringify` of the genre table** are the fields of a
  `JsonCodec`. Where a property needs it, the model assumes the two laws in
  `Home.Faithful`:
  - parsing a serialised table gives the table back;
  - a serialised table is never "" (the least is "{}"), so a written cache
    is a non-empty string.

The routing rules of the worker are stated twice:

- `Worker.Applies` states them declaratively.
- `Worker.RouteOf` follows the code's order of tests.

`Worker.RouteIsUnique` proves that the two agree.

The worker has only the detail and search routes. With the key set, a
request whose only parameter is another one, such as `popular=1` or
`genres=1`, falls into the 400 branch. So the proxied client's initial load
and its genre request are answered with 400
(`EndToEnd.PopularLoadIsRejected`, `EndToEnd.GenreRequestIsRejected`).

## Model

| member | source | states |
|---|---|---|
| Worker.RouteOf | worker/index.js:9-26 | The route the handler takes satisfies the declarative rule for that route: preflight for OPTIONS, then the missing key, then missing parameters, then `id` before `query` |
| Worker.RouteIsUnique | worker/index.js:9-26 | Exactly one rule applies to each request, and it is the one the code's order of tests picks |
| Worker.Decide | worker/index.js:9-28 | Every reply built without asking upstream carries exactly the CORS headers. A request goes upstream iff it is not OPTIONS, the key is set and `query` or `id` is non-empty. The upstream call has the `Accept: application/json` header and targets the detail URL when `id` is set, otherwise the search URL |
| Worker.Relay | worker/index.js:28-41 | A non-ok upstream status is passed on with body "TMDB error" and exactly the CORS headers, unless the `Response` constructor refuses that status with a body, in which case the handler throws (no answer). An ok one gives 200 with the upstream body unchanged and the JSON and cache headers followed by the CORS headers |
| Worker.ConstructorThrows | worker/index.js:30-37 | `new Response(body, { status })` throws for a status outside 200 to 599, or for a body given with a null body status (101, 103, 204, 205, 304), as the Fetch Standard's "initialize a response" steps say |
| Worker.RelayFailsOnlyOn304 | worker/index.js:29-30 | For an upstream status from 200 to 599, relaying throws iff the status is 304 |
| Worker.Handle | worker/index.js:1-41 | The handler throws only when relaying throws. Every answer it gives carries all three CORS headers. OPTIONS gets an empty 200 with only the CORS headers |
| Worker.Dispatch | worker/index.js:13-15 | Reads `query` (absent as "") and `id` from the URL's search parameters and hands them to `Decide`. Its behaviour is stated by `Worker.MissingKeyAnswers500` and the `EndToEnd` lemmas |
| Worker.DetailTarget | worker/index.js:25 | The detail endpoint with the raw id and the key. What TMDB reads from it is stated by `Worker.DetailTargetRoundTrip` |
| Worker.SearchTarget | worker/index.js:26 | The search endpoint with the key and the encoded term. What TMDB reads from it is stated by `Worker.SearchTargetRoundTrip` |
| Worker.PreflightNeedsNoKey | worker/index.js:9-11 | A preflight succeeds even when the server has no key |
| Worker.MissingKeyAnswers500 | worker/index.js:17-19 | Without a key, every non-OPTIONS request gets 500 "Server key missing", whatever its parameters, and nothing goes upstream |
| Worker.MissingParamsAnswer400 | worker/index.js:20-22 | With the key set, the answer is 400 "query or id required" iff `query` is empty and `id` is absent or empty |
| Worker.IdWinsOverQuery | worker/index.js:24-26 | A non-empty `id` is forwarded, and the decision does not depend on `query` |
| Worker.AnswerIgnoresKeyValue | worker/index.js:17-41 | Two different keys give the same response: the key reaches only the upstream URL, never a status, body or header of the answer |
| Worker.SearchTargetRoundTrip | worker/index.js:26 | TMDB reads back from the search target exactly the key and the search term |
| Worker.DetailTargetRoundTrip | worker/index.js:25 | TMDB reads back the key from the detail target of an `id` without `?` or `#` |
| Uri.Get | worker/index.js:14-15 | `searchParams.get` finds nothing iff no pair has the name |
| Uri.QueryOf | worker/index.js:13 | The query of a URL never holds the fragment marker `#`, and it is "" when the URL has no `?` |
| Uri.FormDecode | worker/index.js:13-15 | The form-urlencoded parser: `&`-separated pieces, empty ones skipped, each split at its first `=` and decoded. Its laws are `Uri.FormDecodeAppend` and `Uri.FormDecodeTwo` |
| Uri.SearchParams | worker/index.js:13-15 | `url.searchParams`: the parsed query of the URL. Its reading of the built URLs is stated by the round-trip lemmas |
| Uri.FormDecodeAppend | worker/index.js:13-15 | The parameters of `a&b` are those of `a` followed by those of `b` |
| Uri.FormDecodeTwo | worker/index.js:13-15 | A query `n1=v1&n2=v2` of safe names parses to the two decoded pairs in order |
| Strings.IndexOf | worker/index.js:13 | `indexOf` finds nothing iff the character is absent, and otherwise finds its first occurrence |
| Strings.Split | worker/index.js:13-15 | `split` gives at least one piece, and no piece holds the separator |
| Strings.JoinSplit | worker/index.js:13-15 | Joining the pieces of a split with the separator restores the string |
| Strings.SplitJoin | worker/index.js:13-15 | Splitting a join of separator-free pieces gives the pieces back |
| Strings.SplitAround | worker/index.js:13-15 | Splitting around one separator splits each side on its own |
| Strings.Join | movie-arc/src/MovieCard.tsx:41 | `join(sep)`. Its laws are `Strings.JoinSplit`, `Strings.SplitJoin` and `Strings.JoinIsEmpty` |
| Strings.JoinIsEmpty | movie-arc/src/MovieCard.tsx:41 | With a non-empty separator, a join is "" iff there are no parts or one empty part |
| Strings.Slice | movie-arc/src/MovieCard.tsx:37 | `slice(0, n)` is a prefix of length `Min(n, length)` |
| Strings.TrimStart | src/App.tsx:38 | The result is a suffix that does not start with whitespace, and it is "" iff the text is blank |
| Strings.TrimEnd | src/App.tsx:38 | The result is a prefix, and it is "" iff the text is blank |
| Strings.Trim | src/App.tsx:38 | `trim()` is "" iff every character is ECMAScript whitespace or a line terminator |
| Strings.Decimal | movie-arc/src/MovieCard.tsx:25 | The rendering of an integer is canonical: a `-` first iff the integer is negative, then decimal digits with no leading zero ("0" only for zero). It holds no `/` |
| Strings.DecimalRoundTrip | movie-arc/src/MovieCard.tsx:25 | Reading back a rendered integer gives the integer |
| Strings.DecimalInjective | movie-arc/src/MovieCard.tsx:25 | Distinct integers render differently |
| MovieCard.MatchDetailRoute | movie-arc/src/App.tsx:145 | A path matches iff it is `/movie/` followed by one non-empty segment without `/`, and the id is that segment |
| Home.Refuse | src/App.tsx:31-34 | The configuration guard sets its message, fetches nothing and leaves the list, the table and `loading` alone |
| Home.LoadMovies | src/App.tsx:35-49 | The URL is fetched and `loading` ends false. A delivered page replaces the list (an empty list when `results` is missing) and clears the error. A failure keeps the list and shows its own message: the rejection's or the parser's message, or "Failed to fetch movies" for a non-ok status. The genre table is untouched |
| Home.RetryAfterFailure | src/App.tsx:35-49 | A failed load followed by a successful retry ends in exactly the state the successful load alone gives |
| Home.GenreTableKeys | src/App.tsx:87-92 | The genre table's keys are exactly the listed ids |
| Home.GenreTableLastWins | src/App.tsx:87-92 | Each id names the last genre in the list with that id |
| Home.GenreTable | src/App.tsx:87-92 | `Object.fromEntries` of the id/name pairs, assigned in list order. Its meaning is stated by `Home.GenreTableKeys` and `Home.GenreTableLastWins` |
| Home.CacheHit | src/App.tsx:73-76 | The cache decides when the cached string is non-empty and parses |
| Tmdb.Fetched.FailureMessage | src/App.tsx:42-46 | The `err.message` the `catch` shows: the browser's or parser's message, or the message the code throws for a non-ok status |
| Home.LoadGenres | src/App.tsx:73-97 | No request is made iff the cache is non-empty and parses, in which case the parsed table is used. Otherwise `API_GENRES` is fetched: a delivered list installs its table and caches exactly that table, and a failure keeps table and cache and shows its own message: the rejection's or the parser's message, or "Failed to fetch genres" for a non-ok status. The list and `loading` are never touched |
| Home.MissingGenresGiveEmptyTable | src/App.tsx:88 | A missing `genres` gives the empty table |
| Home.GenreCacheRoundTrip | src/App.tsx:73-94 | After a `fetchGenres` that installed a table, the next one installs the same table from the cache, without a request, whatever the network would answer |
| ProxyHome.MoviesUrl | src/App.tsx:38-40 | A title that is blank once trimmed selects `?popular=1`. Any other title selects `?query=` plus the encoding of the untrimmed title |
| ProxyHome.PopularUrl | src/App.tsx:10 | `PROXY_BASE?popular=1`. `EndToEnd.PopularLoadIsRejected` states what the worker does with it |
| ProxyHome.SearchUrl | src/App.tsx:11 | `PROXY_BASE?query=` plus the encoded title. `EndToEnd.SearchReachesTmdb` states what the worker does with it |
| ProxyHome.GenresUrl | src/App.tsx:12 | `PROXY_BASE?genres=1`. `EndToEnd.GenreRequestIsRejected` states what the worker does with it |
| ProxyHome.GetMovies | src/App.tsx:30-50 | Without a proxy base, only the error is set and nothing is fetched. Otherwise the chosen URL is fetched and `loading` ends false. The error is cleared iff the reply is delivered. A delivered page replaces the list (`results ?? []`), a failure keeps it, and a non-ok status shows "Failed to fetch movies" |
| ProxyHome.SearchMovies | src/App.tsx:52-69 | The same guard. The search URL is used for every title, blank ones included. The list is replaced or kept as in `getMovies`, and a non-ok status shows "Failed to search movies" |
| ProxyHome.FetchGenres | src/App.tsx:71-98 | Without a proxy base nothing at all changes. Otherwise a request is made iff the cache misses, and it goes to `?genres=1`. A non-ok status shows "Failed to fetch genres" |
| ProxyHome.GetMoviesSearchesLikeSearchMovies | src/App.tsx:38-41 | For a title that is not blank, the initial load and a search fetch the same URL |
| DirectHome.GetMovies | movie-arc/src/App.tsx:33-50 | Without a key, only the key message is set. Otherwise the popular endpoint is fetched with `&query=` and the raw title appended, and `loading` ends false. A delivered page replaces the list (`results ?? []`), a failure keeps it, and a non-ok status shows "Failed to fetch movies" |
| DirectHome.PopularUrl | movie-arc/src/App.tsx:11 | The popular endpoint with the key, then `&query=` and the raw title |
| DirectHome.SearchUrl | movie-arc/src/App.tsx:13 | The search endpoint with the key, then `&query=` and the raw title. What TMDB reads from it is stated by `DirectHome.SearchUrlParams` |
| DirectHome.GenresUrl | movie-arc/src/App.tsx:15 | The genre-list endpoint with the key |
| DirectHome.GetMoviesNeverSearches | movie-arc/src/App.tsx:11-13 | `getMovies` never fetches the search endpoint, whatever the title |
| DirectHome.SearchMovies | movie-arc/src/App.tsx:52-69 | The same guard, then the search endpoint with the raw title. The list is replaced or kept as in `getMovies`, and a non-ok status shows "Failed to search movies" |
| DirectHome.FetchGenres | movie-arc/src/App.tsx:71-98 | Without a key nothing changes. Otherwise a request is made iff the cache misses, and it goes to `API_GENRES`. A non-ok status shows "Failed to fetch genres" |
| DirectHome.SearchUrlParams | movie-arc/src/App.tsx:60 | For a title without `#`, TMDB reads the search URL as the key followed by the parameters of `query=` plus the raw title |
| DirectHome.PlainTitleReachesSearch | movie-arc/src/App.tsx:60 | A title without `&` or `#` reaches TMDB whole, decoded once |
| DirectHome.AmpersandCutsTitle | movie-arc/src/App.tsx:60 | For a title without `#`, a `&` cuts it: TMDB searches only for the text before the first `&` |
| DirectHome.HashCutsTitle | movie-arc/src/App.tsx:60 | A `#` cuts the title too: TMDB reads the URL exactly as if the title stopped before the first `#`, and a remainder without `&` is the search term |
| MovieCard.GenreNames | movie-arc/src/MovieCard.tsx:20-22 | There are at most as many names as ids, and each name is a non-empty value of the table. A name appears iff some id resolves to it. The result is empty iff no id resolves |
| MovieCard.GenreNamesOne | movie-arc/src/MovieCard.tsx:20-22 | One id gives its name if it resolves to a non-empty name, and nothing otherwise |
| MovieCard.GenreNamesAppend | movie-arc/src/MovieCard.tsx:20-22 | The names of a concatenation of ids are the names of each part, in order. With `MovieCard.GenreNamesOne` this fixes the names as the ids' names in order, unresolved ids dropped |
| MovieCard.AllResolvedKeepOrder | movie-arc/src/MovieCard.tsx:20-22 | When every id resolves, the names are the ids' names, one per id, in order |
| MovieCard.CardGenreNames | movie-arc/src/MovieCard.tsx:20 | The card's names, a missing `genre_ids` counting as none (`?? []`) |
| MovieCard.GenreLabel | movie-arc/src/MovieCard.tsx:41 | The label is "N/A" when no name resolves, otherwise the names joined by ", ". It is never empty |
| MovieCard.PosterSrc | movie-arc/src/MovieCard.tsx:19-32 | The placeholder is used iff `poster_path` is null. Any other path, even "", is appended to the w500 base |
| MovieCard.Year | movie-arc/src/MovieCard.tsx:37 | A null or missing `release_date` makes `slice` throw (None). Otherwise the year is the first `Min(4, length)` characters of the date |
| MovieCard.LinkPath | movie-arc/src/MovieCard.tsx:25 | The link is `/movie/` followed by text that reads back as the movie's id |
| MovieDetails.FetchMovie | movie-arc/src/MovieDetails.tsx:33-58 | A missing id is reported first, then a missing key, and neither fetches. With both, the detail URL is fetched and `loading` ends false. A delivered movie replaces the shown one and clears the error. A failure keeps the movie and shows its own message: the rejection's or the parser's message, or "Failed to load movie details" for a non-ok status |
| MovieDetails.DetailUrl | movie-arc/src/MovieDetails.tsx:46 | The detail endpoint with the route's id and the key. `EndToEnd.CardLinkOpensItsMovie` states that a card's link reaches it |
| MovieDetails.ShowsMovie | movie-arc/src/MovieDetails.tsx:81 | The movie is shown only when loading is over, no error is shown and a movie is held |
| MovieDetails.DeliveredMovieIsShown | movie-arc/src/MovieDetails.tsx:81 | A delivered movie is the one shown. After a failure, a movie is shown iff the error message is empty and a movie was held |
| MovieDetails.BackdropUrl | movie-arc/src/MovieDetails.tsx:60-62 | There is a backdrop iff `backdrop_path` is non-empty, and it is the w1280 image of that path |
| MovieDetails.BackdropIffPoster | movie-arc/src/MovieDetails.tsx:60-65 | For the same path, there is a backdrop iff the poster is not the placeholder |
| MovieDetails.PosterUrl | movie-arc/src/MovieDetails.tsx:63-65 | The placeholder is used iff `poster_path` is null, missing or "". Otherwise the poster is the w500 image |
| MovieDetails.GenreNames | movie-arc/src/MovieDetails.tsx:66 | One name per genre, in order |
| MovieDetails.GenreLabel | movie-arc/src/MovieDetails.tsx:66 | Without a movie or a `genres` list, the label is "N/A". With a list, it is the names joined by ", " |
| MovieDetails.EmptyGenreListGivesEmptyLine | movie-arc/src/MovieDetails.tsx:66 | An empty genre list gives "", not "N/A" |
| MovieDetails.Year | movie-arc/src/MovieDetails.tsx:67 | The year is non-empty iff `release_date` is non-empty, and it is then its first min(4, length) characters |
| MovieDetails.Overview | movie-arc/src/MovieDetails.tsx:128 | The overview, or "No description available." when it is empty or absent. Never empty |
| MovieDetails.RuntimeBadge | movie-arc/src/MovieDetails.tsx:116-120 | The badge appears iff the runtime is set and non-zero, and it reads "⏱ {runtime} min" |
| MovieDetails.RuntimeBadgeReadsBack | movie-arc/src/MovieDetails.tsx:118 | The number in the badge reads back as the runtime |
| EndToEnd.OneParamUrl | worker/index.js:13-15 | A client URL `base?name=value` reaches the worker as that one parameter |
| EndToEnd.ForeignParamIsRejected | worker/index.js:20-21 | With the key set, a request whose only parameter is neither `query` nor `id` gets 400, whatever its value (one without `&` or `#`) |
| EndToEnd.PopularLoadIsRejected | src/App.tsx:38-40 | The proxied initial load (a blank title) asks for `?popular=1`, which the worker answers with 400 |
| EndToEnd.GenreRequestIsRejected | src/App.tsx:12 | The proxied genre request `?genres=1` is answered with 400 |
| EndToEnd.EmptySearchIsRejected | src/App.tsx:60 | A search for "" sends `?query=`, which is answered with 400 |
| EndToEnd.SearchReachesTmdb | worker/index.js:26 | A proxied search for a non-empty title is forwarded to TMDB search, and TMDB reads back exactly the typed title and the key |
| EndToEnd.CardLinkOpensItsMovie | movie-arc/src/MovieCard.tsx:25 | A card's link matches the detail route with the id in decimal. The detail page then fetches that movie |
| EndToEnd.CardLinksIdentifyMovies | movie-arc/src/MovieCard.tsx:25 | Two cards link to the same page only for the same id |
| EndToEnd.PostersAgreeOnNonEmptyPath | movie-arc/src/MovieDetails.tsx:63-65 | For a non-empty poster path, the card and the detail page show the same image |
| EndToEnd.PostersDisagreeOnEmptyPath | movie-arc/src/MovieCard.tsx:28-32 | For an empty poster path, the card shows the bare w500 base and the detail page shows the placeholder |
| EndToEnd.YearsAgree | movie-arc/src/MovieDetails.tsx:67 | For the same present date, the card and the detail page show the same year |
| EndToEnd.GenreLabelsAgree | movie-arc/src/MovieCard.tsx:20-41 | When the card's ids all resolve, in order, to the names of the detail page's genres, the card and the detail page show the same genre line |
| EndToEnd.NoGenresReadDifferently | movie-arc/src/MovieDetails.tsx:66 | With no genres, the card reads "N/A" but the detail page's genre line is empty |

## Left out

- Network I/O: the browser `fetch`, the worker's outbound `fetch` and TMDB itself. Their outcomes are parameters.
- Asynchrony and effect order: React state updates, `useEffect` ordering, and several requests in flight at once. Each action is modelled as settling on its own.
- Rendering: JSX, Tailwind classes, `Routes`/`Link`/`useNavigate`, the "Loading..." and "No movies found" lines, and the CSS backdrop gradient string (movie-arc/src/MovieDetails.tsx:86-88).
- `vote_average.toFixed(1)`: floating-point formatting. `vote_average` is not in the data model.
- The tagline line (movie-arc/src/MovieDetails.tsx:107-109): it only tests the tagline's truthiness before printing it.
- vite.config.ts: build configuration only.
- src/MovieDetails.tsx, imported by src/App.tsx:6: it is not part of this model. The detail page modelled is the one in movie-arc/src/.
- Worker.Handle: an outbound `fetch` or `tmdbRes.text()` that rejects (worker/index.js:28, 33) is not modelled. The handler would then throw, and the runtime's own error answer carries no CORS headers. "Every response carries the CORS headers" covers the answers the handler builds. An upstream 304, which the `Response` constructor refuses with a body, is modelled as the handler throwing (`Worker.Relay` gives None).
- Worker.Dispatch: the request URL is assumed to be absolute and valid. `new URL` throwing on a malformed URL, and the parser's normalisation of the path and host, are not modelled.
- Uri.UriCodec: `encodeURIComponent` and percent-decoding are constrained only by the laws in `Uri.Lawful`, not defined byte by byte.
- Home.LoadGenres: `JSON.parse` is a parameter returning a table or nothing (nothing when it throws). A cached string that parses to JSON other than an object, such as `5`, is treated like a throw. The code would install that value as the table.
- MovieCard.MatchDetailRoute: React Router also matches `/movie/:id` with a trailing `/` and without regard to case, and it percent-decodes the id. The model matches the exact lower-case path with no trailing `/` and passes the id on as written.
- Strings.Decimal: renders integers only, and only as JavaScript does below 10^21. Movie ids and runtimes are modelled as integers. Exponent notation and fractional numbers are not modelled.
- MovieDetails.RuntimeBadge: a `NaN` runtime, which JavaScript also treats as falsy, is not modelled.
- Values.TruthyNumber: covers `null`, `undefined` and 0 only. `NaN` is not a value of the model.
- The raw `${id}` in the worker's detail target and the raw title in movie-arc/src/App.tsx are modelled as written, unencoded. `Worker.DetailTargetRoundTrip` therefore requires an id without `?` or `#`, and `DirectHome.AmpersandCutsTitle` and `DirectHome.HashCutsTitle` show what an `&` or a `#` in a title does.

=== FILE: direct_home.dfy ===
/** The Home page of the direct client (movie-arc/src/App.tsx): requests go
    straight to TMDB with the browser-side key (`VITE_TMDB_API_KEY`), the
    title concatenated into the URL without encoding. */
module DirectHome {
  import opened Values
  import opened Tmdb
  import opened Home
  import Uri

  function PopularUrl(key: string, title: string): string {
    ApiBase + "/movie/popular?api_key=" + key + "&query=" + title
  }

  function SearchUrl(key: string, title: string): string {
    ApiBase + "/search/movie?api_key=" + key + "&query=" + title
  }

  function GenresUrl(key: string): string {
    ApiBase + "/genre/movie/list?api_key=" + key
  }

  /** `getMovies(title)`: without a key only the error is set; otherwise
      the popular endpoint is fetched, never the search one, with the raw
      title appended as a `query` parameter the endpoint ignores. */
  function GetMovies(s: HomeState, key: Option<string>, title: string, reply: Fetched<MoviePage>): (r: Step)
    ensures !Truthy(key) ==> r.request.None? && r.state == s.(error := Some(MissingKeyMessage))
    ensures Truthy(key) ==> r.request == Some(PopularUrl(key.value, title)) && !r.state.loading
    ensures Truthy(key) ==> (r.state.error.None? <==> reply.Delivered?)
    ensures Truthy(key) && reply.Delivered? ==> r.state.movies == reply.payload.results.OrElse([])
    ensures Truthy(key) && !reply.Delivered? ==> r.state.movies == s.movies
    ensures Truthy(key) && reply.NotOk? ==> r.state.error == Some(MoviesFailed)
  {
    if !Truthy(key) then Refuse(s, MissingKeyMessage)
    else LoadMovies(s, PopularUrl(key.value, title), reply, MoviesFailed)
  }

  /** `searchMovies(title)`: the same guard, then the search endpoint with
      the raw title. */
  function SearchMovies(s: HomeState, key: Option<string>, title: string, reply: Fetched<MoviePage>): (r: Step)
    ensures !Truthy(key) ==> r.request.None? && r.state == s.(error := Some(MissingKeyMessage))
    ensures Truthy(key) ==> r.request == Some(SearchUrl(key.value, title)) && !r.state.loading
    ensures Truthy(key) ==> (r.state.error.None? <==> reply.Delivered?)
    ensures Truthy(key) && reply.Delivered? ==> r.state.movies == reply.payload.results.OrElse([])
    ensures Truthy(key) && !reply.Delivered? ==> r.state.movies == s.movies
    ensures Truthy(key) && reply.NotOk? ==> r.state.error == Some(SearchFailed)
  {
    if !Truthy(key) then Refuse(s, MissingKeyMessage)
    else LoadMovies(s, SearchUrl(key.value, title), reply, SearchFailed)
  }

  /** `fetchGenres()`: without a key nothing at all happens. */
  function FetchGenres(s: HomeState, key: Option<string>, cache: Option<string>, json: JsonCodec, reply: Fetched<GenreList>): (r: GenreStep)
    ensures !Truthy(key) ==> r == GenreStep(s, cache, None)
    ensures Truthy(key) ==> (r.request.None? <==> CacheHit(cache, json))
    ensures Truthy(key) && r.request.Some? ==> r.request == Some(GenresUrl(key.value))
    ensures Truthy(key) && !CacheHit(cache, json) && reply.NotOk? ==> r.state.error == Some(GenresFailed)
  {
    if !Truthy(key) then GenreStep(s, cache, None)
    else LoadGenres(s, cache, json, GenresUrl(key.value), reply)
  }

  /** `getMovies` never reaches the search endpoint, whatever the title:
      the popular and search URLs differ right after the API root. */
  lemma GetMoviesNeverSearches(s: HomeState, key: Option<string>, title: string, reply: Fetched<MoviePage>, term: string)
    ensures GetMovies(s, key, title, reply).request != Some(SearchUrl(key.GetOr(""), term))
  {
    if Truthy(key) {
      var k := |ApiBase| + 1;
      assert PopularUrl(key.value, title)[k] == 'm';
      assert SearchUrl(key.value, term)[k] == 's';
    }
  }

  /** TMDB reads a search URL's parameters as the key followed by the
      parameters of the raw title text: the title is not encoded, so its
      '&' and '=' are read as separators. */
  lemma SearchUrlParams(key: string, title: string, codec: Uri.UriCodec)
    requires Uri.Lawful(codec) && Uri.SafeKey(key) && '#' !in title
    ensures Uri.SearchParams(SearchUrl(key, title), codec.decode)
         == [("api_key", key)] + Uri.FormDecode("query" + "=" + title, codec.decode)
  {
    var base := ApiBase + "/search/movie";
    var a, b := "api_key" + "=" + key, "query" + "=" + title;
    var query := a + "&" + b;
    var url := SearchUrl(key, title);
    assert url == base + "?" + query;
    assert Uri.QueryOf(url) == query by {
      SearchBaseIsPlain();
      Uri.QueryOfAppended(base, query);
    }
    assert Uri.FormDecode(query, codec.decode) == Uri.FormDecode(a, codec.decode) + Uri.FormDecode(b, codec.decode) by {
      Uri.FormDecodeAppend(a, b, codec.decode);
    }
    assert Uri.FormDecode(a, codec.decode) == [("api_key", key)] by {
      Uri.ApiKeyIsSafe();
      Uri.FormDecodeOne("api_key", key, codec);
    }
  }

  /** A title free of '&' reaches TMDB whole, decoded once. */
  lemma PlainTitleReachesSearch(key: string, title: string, codec: Uri.UriCodec)
    requires Uri.Lawful(codec) && Uri.SafeKey(key)
    requires '&' !in title && '#' !in title
    ensures Uri.Get(Uri.SearchParams(SearchUrl(key, title), codec.decode), "query") == Some(codec.decode(title))
  {
    assert Uri.SearchParams(SearchUrl(key, title), codec.decode)
        == [("api_key", key)] + Uri.FormDecode("query" + "=" + title, codec.decode) by {
      SearchUrlParams(key, title, codec);
    }
    assert Uri.FormDecode("query" + "=" + title, codec.decode) == [("query", codec.decode(title))] by {
      Uri.QueryIsSafe();
      Uri.FormDecodeOne("query", title, codec);
    }
  }

  /** A title holding '&' is cut there: TMDB searches only for the text
      before the first '&'; the rest becomes further parameters. */
  lemma AmpersandCutsTitle(key: string, before: string, after: string, codec: Uri.UriCodec)
    requires Uri.Lawful(codec) && Uri.SafeKey(key)
    requires '&' !in before && '#' !in before && '#' !in after
    ensures Uri.Get(Uri.SearchParams(SearchUrl(key, before + "&" + after), codec.decode), "query")
         == Some(codec.decode(before))
  {
    var title := before + "&" + after;
    var rest := Uri.FormDecode(after, codec.decode);
    var params := Uri.SearchParams(SearchUrl(key, title), codec.decode);
    var pairs := Uri.FormDecode("query" + "=" + title, codec.decode);
    var found := ("query", codec.decode(before));
    assert params == [("api_key", key)] + pairs by {
      assert '#' !in title;
      SearchUrlParams(key, title, codec);
    }
    assert pairs == [found] + rest by {
      Uri.QueryIsSafe();
      Uri.FormDecodeCut("query", before, after, codec);
    }
    assert Uri.Get(params, "query") == Uri.Get(pairs, "query") by {
      assert "api_key" != "query" by { assert |"api_key"| != |"query"|; }
      Uri.GetSkips(("api_key", key), pairs, "query");
    }
    Uri.GetFinds(found, rest);
  }
  /** A title holding '#' is cut there as well: the rest of the URL is its
      fragment, so TMDB reads the URL as if the title stopped before the
      '#', and a plain remainder reaches it as the search term. */
  lemma HashCutsTitle(key: string, before: string, after: string, codec: Uri.UriCodec)
    requires Uri.Lawful(codec) && Uri.SafeKey(key) && '#' !in before
    ensures Uri.SearchParams(SearchUrl(key, before + "#" + after), codec.decode)
         == Uri.SearchParams(SearchUrl(key, before), codec.decode)
    ensures '&' !in before ==>
              Uri.Get(Uri.SearchParams(SearchUrl(key, before + "#" + after), codec.decode), "query")
              == Some(codec.decode(before))
  {
    var base := ApiBase + "/search/movie";
    var query := "api_key=" + key + "&query=" + before;
    assert SearchUrl(key, before + "#" + after) == base + "?" + query + "#" + after;
    assert SearchUrl(key, before) == base + "?" + query;
    SearchBaseIsPlain();
    Uri.QueryOfFragment(base, query, after);
    Uri.QueryOfAppended(base, query);
    if '&' !in before {
      PlainTitleReachesSearch(key, before, codec);
    }
  }

}

=== FILE: end_to_end.dfy ===
/** Properties that span files: what the worker does with the URLs the
    proxied client builds, how a card's link opens the detail page, and
    where the card and the detail page render the same movie differently. */
module EndToEnd {
  import opened Values
  import opened Strings
  import opened Tmdb
  import Uri
  import Worker
  import Home
  import ProxyHome
  import MovieCard
  import MovieDetails

  /** The worker's 400 answer. */
  const BadRequest: Worker.Decision := Worker.Reply(Worker.Response(400, Some(Worker.MissingParamsBody), Worker.CorsHeaders))

  /** A client URL `base + "?" + name + "=" + value` reaches the worker as
      the one parameter `name`. */
  lemma OneParamUrl(base: string, name: string, value: string, codec: Uri.UriCodec)
    requires Uri.Lawful(codec) && '?' !in base && '#' !in base
    requires Uri.SafeName(name) && '&' !in value && '#' !in value
    ensures Uri.SearchParams(base + "?" + name + "=" + value, codec.decode) == [(name, codec.decode(value))]
  {
    var query := name + "=" + value;
    assert base + "?" + name + "=" + value == base + "?" + query;
    assert '#' !in query;
    Uri.QueryOfAppended(base, query);
    Uri.FormDecodeOne(name, value, codec);
  }

  /** The worker's decision on a request that carries the one parameter
      `name`, neither `query` nor `id`, when its key is set: 400. */
  lemma ForeignParamIsRejected(verb: string, base: string, name: string, value: string, key: string, codec: Uri.UriCodec)
    requires Uri.Lawful(codec) && '?' !in base && '#' !in base
    requires Uri.SafeName(name) && name != "query" && name != "id"
    requires '&' !in value && '#' !in value
    requires verb != "OPTIONS" && key != ""
    ensures Worker.Dispatch(Worker.Request(verb, base + "?" + name + "=" + value), Some(key), codec) == BadRequest
  {
    OneParamUrl(base, name, value, codec);
  }

  /** The proxied client's initial load (`getMovies("")`, and any title
      that is blank once trimmed) asks for `?popular=1`, a route the worker
      does not have: the worker answers 400 and the page shows an error. */
  lemma PopularLoadIsRejected(verb: string, base: string, title: string, key: string, codec: Uri.UriCodec)
    requires Uri.Lawful(codec) && '?' !in base && '#' !in base
    requires verb != "OPTIONS" && key != ""
    requires IsBlank(title)
    ensures Worker.Dispatch(Worker.Request(verb, ProxyHome.MoviesUrl(base, title, codec.encode)), Some(key), codec)
         == BadRequest
  {
    assert ProxyHome.MoviesUrl(base, title, codec.encode) == base + "?" + "popular" + "=" + "1";
    Uri.PopularIsSafe();
    assert '&' !in "1" && '#' !in "1";
    ForeignParamIsRejected(verb, base, "popular", "1", key, codec);
  }

  /** The proxied client's genre request `?genres=1` gets 400 too, so its
      genre table only ever comes from the cache. */
  lemma GenreRequestIsRejected(verb: string, base: string, key: string, codec: Uri.UriCodec)
    requires Uri.Lawful(codec) && '?' !in base && '#' !in base
    requires verb != "OPTIONS" && key != ""
    ensures Worker.Dispatch(Worker.Request(verb, ProxyHome.GenresUrl(base)), Some(key), codec) == BadRequest
  {
    assert ProxyHome.GenresUrl(base) == base + "?" + "genres" + "=" + "1";
    Uri.GenresIsSafe();
    assert '&' !in "1" && '#' !in "1";
    ForeignParamIsRejected(verb, base, "genres", "1", key, codec);
  }

  /** Searching for the empty title sends `?query=`, which the worker
      rejects with 400. */
  lemma EmptySearchIsRejected(verb: string, base: string, key: string, codec: Uri.UriCodec)
    requires Uri.Lawful(codec) && '?' !in base && '#' !in base
    requires verb != "OPTIONS" && key != ""
    ensures Worker.Dispatch(Worker.Request(verb, ProxyHome.SearchUrl(base, "", codec.encode)), Some(key), codec)
         == BadRequest
  {
    assert ProxyHome.SearchUrl(base, "", codec.encode) == base + "?" + "query" + "=" + "";
    Uri.QueryIsSafe();
    OneParamUrl(base, "query", "", codec);
    assert Uri.Plain("");
  }

  /** Any other search is forwarded to TMDB's search endpoint, and TMDB
      reads back exactly the title the user typed: the client encodes it
      once, the worker decodes and re-encodes it, TMDB decodes it once. */
  lemma SearchReachesTmdb(verb: string, base: string, title: string, key: string, codec: Uri.UriCodec)
    requires Uri.Lawful(codec) && '?' !in base && '#' !in base
    requires verb != "OPTIONS" && Uri.SafeKey(key) && key != ""
    requires title != ""
    ensures var d := Worker.Dispatch(Worker.Request(verb, ProxyHome.SearchUrl(base, title, codec.encode)), Some(key), codec);
            && d == Worker.Forward(Worker.UpstreamCall(Worker.SearchTarget(title, key, codec.encode), Worker.AcceptJson))
            && Uri.SearchParams(d.call.url, codec.decode) == [("api_key", key), ("query", title)]
  {
    var encoded := codec.encode(title);
    assert ProxyHome.SearchUrl(base, title, codec.encode) == base + "?" + "query" + "=" + encoded;
    Uri.QueryIsSafe();
    OneParamUrl(base, "query", encoded, codec);
    Worker.SearchTargetRoundTrip(title, key, codec);
  }

  /** A card's link matches the detail route with the movie's id in
      decimal, so the detail page never reports a missing id for it and,
      with a key, fetches that movie's detail URL. */
  lemma CardLinkOpensItsMovie(movie: Movie, s: MovieDetails.DetailsState, key: string, reply: Fetched<MovieDetailsResponse>)
    requires key != ""
    ensures MovieCard.MatchDetailRoute(MovieCard.LinkPath(movie)) == Some(Decimal(movie.id))
    ensures MovieDetails.FetchMovie(s, MovieCard.MatchDetailRoute(MovieCard.LinkPath(movie)), Some(key), reply).request
         == Some(MovieDetails.DetailUrl(Decimal(movie.id), key))
  {
    var path := MovieCard.LinkPath(movie);
    assert path == "/movie/" + Decimal(movie.id);
    assert path[7..] == Decimal(movie.id);
  }

  /** Two cards link to the same page only for the same id. */
  lemma CardLinksIdentifyMovies(m1: Movie, m2: Movie)
    ensures MovieCard.LinkPath(m1) == MovieCard.LinkPath(m2) ==> m1.id == m2.id
  {
  }

  /** For a non-empty poster path the card and the detail page show the
      same w500 image. */
  lemma PostersAgreeOnNonEmptyPath(movie: Movie, details: MovieDetailsResponse, path: string)
    requires movie.posterPath == Value(path) && details.posterPath == Value(path) && path != ""
    ensures MovieCard.PosterSrc(movie) == MovieDetails.PosterUrl(Some(details))
  {
    assert MovieCard.PosterBase == ImageBase + "/w500";
  }

  /** For an empty poster path they differ: the card tests `!== null` and
      shows the bare w500 base, the detail page tests truthiness and shows
      the placeholder. */
  lemma PostersDisagreeOnEmptyPath(movie: Movie, details: MovieDetailsResponse)
    requires movie.posterPath == Value("") && details.posterPath == Value("")
    ensures MovieCard.PosterSrc(movie) == MovieCard.PosterBase
    ensures MovieDetails.PosterUrl(Some(details)) == PosterPlaceholder
    ensures MovieCard.PosterSrc(movie) != MovieDetails.PosterUrl(Some(details))
  {
    assert MovieCard.PosterBase + "" == MovieCard.PosterBase;
  }

  /** Both pages show the same year for the same present release date
      (the card renders at all only when the date is present). */
  lemma YearsAgree(movie: Movie, details: MovieDetailsResponse)
    requires movie.releaseDate.Value? && details.releaseDate == movie.releaseDate
    ensures MovieCard.Year(movie) == Some(MovieDetails.Year(Some(details)))
  {
  }

  /** When the card's ids all resolve, in order, to the names of the detail
      page's genres, the card and the detail page show the same genre line. */
  lemma {:induction false} GenreLabelsAgree(movie: Movie, genreMap: map<int, string>, details: MovieDetailsResponse)
    requires movie.genreIds.Value? && details.genres.Value?
    requires |movie.genreIds.value| == |details.genres.value| > 0
    requires forall i :: 0 <= i < |movie.genreIds.value| ==>
               MovieCard.Resolves(movie.genreIds.value[i], genreMap)
               && genreMap[movie.genreIds.value[i]] == details.genres.value[i].name
    ensures MovieCard.GenreLabel(movie, genreMap) == MovieDetails.GenreLabel(Some(details))
  {
    var ids, genres := movie.genreIds.value, details.genres.value;
    MovieCard.AllResolvedKeepOrder(ids, genreMap);
    var names := MovieCard.GenreNames(ids, genreMap);
    assert names == MovieDetails.GenreNames(genres);
  }

  /** A movie without genres reads "N/A" on its card but an empty genre
      line on its detail page. */
  lemma NoGenresReadDifferently(movie: Movie, genreMap: map<int, string>, details: MovieDetailsResponse)
    requires movie.genreIds == Value([]) && details.genres == Value([])
    ensures MovieCard.GenreLabel(movie, genreMap) == NoGenres
    ensures MovieDetails.GenreLabel(Some(details)) == ""
  {
    MovieDetails.EmptyGenreListGivesEmptyLine(details);
  }
}

=== FILE: home.dfy ===
/** The state machine of the `Home` page, shared by both versions of App:
    the movie list, the genre table, the error line and the loading flag,
    and what `getMovies`, `searchMovies` and `fetchGenres` do to them once
    their configuration guard has passed. The two versions differ only in
    the guard and in the URLs (modules ProxyHome and DirectHome). */
module Home {
  import opened Values
  import opened Tmdb

  const MoviesFailed := "Failed to fetch movies"
  const SearchFailed := "Failed to search movies"
  const GenresFailed := "Failed to fetch genres"

  datatype HomeState = HomeState(
    movies: seq<Movie>,
    genreMap: map<int, string>,
    error: Option<string>,
    loading: bool)

  /** The state once an action has settled, and the URL it fetched, if any. */
  datatype Step = Step(state: HomeState, request: Option<string>)

  /** The configuration guard failing: the error is set, nothing is fetched,
      and nothing else (not even `loading`) changes. */
  function Refuse(s: HomeState, message: string): (r: Step)
    ensures r.request.None?
    ensures r.state.error == Some(message)
    ensures r.state.movies == s.movies && r.state.genreMap == s.genreMap && r.state.loading == s.loading
  {
    Step(s.(error := Some(message)), None)
  }

  /** The `try`/`catch`/`finally` of `getMovies` and `searchMovies`: fetch
      `url`; a delivered page replaces the list (a missing `results` empties
      it) and clears the error; any failure keeps the list and shows its
      message; loading is over either way. */
  function LoadMovies(s: HomeState, url: string, reply: Fetched<MoviePage>, notOkMessage: string): (r: Step)
    ensures r.request == Some(url)
    ensures !r.state.loading
    ensures r.state.genreMap == s.genreMap
    ensures r.state.error.None? <==> reply.Delivered?
    ensures reply.Delivered? ==> r.state.movies == reply.payload.results.OrElse([])
    ensures reply.Delivered? && reply.payload.results.Value? ==> r.state.movies == reply.payload.results.value
    ensures reply.Delivered? && !reply.payload.results.Value? ==> r.state.movies == []
    ensures !reply.Delivered? ==> r.state.movies == s.movies
    ensures !reply.Delivered? ==> r.state.error == Some(reply.FailureMessage(notOkMessage))
    ensures reply.NotOk? ==> r.state.error == Some(notOkMessage)
  {
    match reply
    case Delivered(page) => Step(s.(movies := page.results.OrElse([]), error := None, loading := false), Some(url))
    case _ => Step(s.(error := Some(reply.FailureMessage(notOkMessage)), loading := false), Some(url))
  }

  /** A failed load followed by a successful retry of the same URL ends
      exactly where the successful load alone would have: a failure leaves
      nothing behind that a later delivery does not overwrite. */
  lemma RetryAfterFailure(s: HomeState, url: string, failure: Fetched<MoviePage>, success: Fetched<MoviePage>, notOkMessage: string)
    requires !failure.Delivered? && success.Delivered?
    ensures LoadMovies(LoadMovies(s, url, failure, notOkMessage).state, url, success, notOkMessage)
         == LoadMovies(s, url, success, notOkMessage)
  {
  }

  /** `Object.fromEntries(genres.map(g => [g.id, g.name]))`: the entries
      are assigned in list order, so a later duplicate id overwrites an
      earlier one. */
  function GenreTable(genres: seq<Genre>): map<int, string>
  {
    if |genres| == 0 then map[]
    else
      var last := genres[|genres| - 1];
      GenreTable(genres[..|genres| - 1])[last.id := last.name]
  }

  /** No genre after position `i` has the id of the genre at `i`. */
  predicate LastWithItsId(genres: seq<Genre>, i: int)
    requires 0 <= i < |genres|
  {
    forall j :: i < j < |genres| ==> genres[j].id != genres[i].id
  }

  /** The table's keys are exactly the listed ids. */
  lemma {:induction false} GenreTableKeys(genres: seq<Genre>)
    ensures forall id :: id in GenreTable(genres) <==> exists i :: 0 <= i < |genres| && genres[i].id == id
  {
    if |genres| > 0 {
      var prefix, last := genres[..|genres| - 1], genres[|genres| - 1];
      GenreTableKeys(prefix);
      forall id
        ensures id in GenreTable(genres) <==> exists i :: 0 <= i < |genres| && genres[i].id == id
      {
        if id == last.id {
          assert genres[|genres| - 1].id == id;
        } else {
          if id in GenreTable(prefix) {
            var i :| 0 <= i < |prefix| && prefix[i].id == id;
            assert genres[i].id == id;
          }
          if exists i :: 0 <= i < |genres| && genres[i].id == id {
            var i :| 0 <= i < |genres| && genres[i].id == id;
            assert prefix[i].id == id;
          }
        }
      }
    }
  }

  /** Each id names the last genre in the list that has it. */
  lemma {:induction false} GenreTableLastWins(genres: seq<Genre>)
    ensures forall i :: 0 <= i < |genres| && LastWithItsId(genres, i) ==>
              genres[i].id in GenreTable(genres) && GenreTable(genres)[genres[i].id] == genres[i].name
  {
    if |genres| > 0 {
      var prefix, last := genres[..|genres| - 1], genres[|genres| - 1];
      GenreTableLastWins(prefix);
      forall i | 0 <= i < |genres| && LastWithItsId(genres, i)
        ensures genres[i].id in GenreTable(genres) && GenreTable(genres)[genres[i].id] == genres[i].name
      {
        if i < |prefix| {
          assert prefix[i] == genres[i];
          assert genres[|genres| - 1].id != genres[i].id;
          assert LastWithItsId(prefix, i);
        }
      }
    }
  }

  /** `JSON.parse` of a cached table (None when it throws) and
      `JSON.stringify` of a table. */
  datatype JsonCodec = JsonCodec(parse: string -> Option<map<int, string>>, stringify: map<int, string> -> string)

  /** The laws used of the JSON pair: parsing a serialised table gives it
      back, and a serialised table (at least "{}") is never empty. */
  ghost predicate Faithful(json: JsonCodec) {
    forall m :: json.stringify(m) != "" && json.parse(json.stringify(m)) == Some(m)
  }

  /** The cache decides: a non-empty cached string that parses. */
  predicate CacheHit(cache: Option<string>, json: JsonCodec) {
    Truthy(cache) && json.parse(cache.value).Some?
  }

  /** The genre table, the cached string and the URL fetched, if any, after
      `fetchGenres`. */
  datatype GenreStep = GenreStep(state: HomeState, cache: Option<string>, request: Option<string>)

  /** `fetchGenres` once its configuration guard has passed. A cache hit
      installs the parsed table without a request; an absent or empty cache,
      or one that does not parse, falls through to fetching `url`. A
      delivered list installs its table and writes that same table to the
      cache; a failure keeps table and cache and shows its message.
      `fetchGenres` never touches the movie list or the loading flag. */
  function LoadGenres(s: HomeState, cache: Option<string>, json: JsonCodec, url: string, reply: Fetched<GenreList>): (r: GenreStep)
    ensures r.state.movies == s.movies && r.state.loading == s.loading
    ensures r.request.None? <==> CacheHit(cache, json)
    ensures r.request.Some? ==> r.request == Some(url)
    ensures CacheHit(cache, json) ==> Some(r.state.genreMap) == json.parse(cache.value) && r.cache == cache
    ensures CacheHit(cache, json) ==> r.state.error == s.error
    ensures !CacheHit(cache, json) && reply.Delivered? ==>
              && r.cache == Some(json.stringify(r.state.genreMap))
              && r.state.genreMap == GenreTable(reply.payload.genres.OrElse([]))
              && r.state.error == s.error
    ensures !CacheHit(cache, json) && !reply.Delivered? ==>
              r.state.genreMap == s.genreMap && r.cache == cache && r.state.error.Some?
    ensures !CacheHit(cache, json) && !reply.Delivered? ==> r.state.error == Some(reply.FailureMessage(GenresFailed))
    ensures !CacheHit(cache, json) && reply.NotOk? ==> r.state.error == Some(GenresFailed)
  {
    if CacheHit(cache, json) then
      GenreStep(s.(genreMap := json.parse(cache.value).value), cache, None)
    else
      match reply
      case Delivered(list) =>
        var table := GenreTable(list.genres.OrElse([]));
        GenreStep(s.(genreMap := table), Some(json.stringify(table)), Some(url))
      case _ =>
        GenreStep(s.(error := Some(reply.FailureMessage(GenresFailed))), cache, Some(url))
  }

  /** A missing `genres` gives the empty table. */
  lemma MissingGenresGiveEmptyTable(list: GenreList)
    requires !list.genres.Value?
    ensures GenreTable(list.genres.OrElse([])) == map[]
  {
  }

  /** The cache round trip: once a `fetchGenres` has installed a table
      (from the cache or from the network), a later one, whatever the page
      state and whatever the network would answer, installs the same table
      from the cache without a request and leaves the cache as it is. */
  lemma GenreCacheRoundTrip(
    s: HomeState, cache: Option<string>, json: JsonCodec, url: string, reply: Fetched<GenreList>,
    later: HomeState, laterReply: Fetched<GenreList>)
    requires Faithful(json)
    requires CacheHit(cache, json) || reply.Delivered?
    ensures var first := LoadGenres(s, cache, json, url, reply);
            var second := LoadGenres(later, first.cache, json, url, laterReply);
            && second.request.None?
            && second.state.genreMap == first.state.genreMap
            && second.cache == first.cache
  {
    var first := LoadGenres(s, cache, json, url, reply);
    if !CacheHit(cache, json) {
      var table := first.state.genreMap;
      assert json.parse(json.stringify(table)) == Some(table) && json.stringify(table) != "";
      assert CacheHit(first.cache, json);
    }
  }
}

=== FILE: movie_card.dfy ===
/** One result card (movie-arc/src/MovieCard.tsx): the genre label built
    from the card's genre ids and the page's genre table, the poster, the
    year and the link to the detail page. */
module MovieCard {
  import opened Values
  import opened Strings
  import opened Tmdb

  const PosterBase := "https://image.tmdb.org/t/p/w500"

  /** Whether the table gives `id` a name `filter(Boolean)` keeps. */
  predicate Resolves(id: int, genreMap: map<int, string>) {
    id in genreMap && genreMap[id] != ""
  }

  /** `ids.map(id => genreMap[id]).filter(Boolean)`: the names of the ids,
      in the ids' order, leaving out ids the table lacks and empty names. */
  function GenreNames(ids: seq<int>, genreMap: map<int, string>): (names: seq<string>)
    ensures |names| <= |ids|
    ensures forall k :: 0 <= k < |names| ==> names[k] != "" && names[k] in genreMap.Values
    ensures forall n :: n in names <==> exists i :: 0 <= i < |ids| && Resolves(ids[i], genreMap) && genreMap[ids[i]] == n
    ensures names == [] <==> forall i :: 0 <= i < |ids| ==> !Resolves(ids[i], genreMap)
  {
    if |ids| == 0 then []
    else
      var rest := GenreNames(ids[1..], genreMap);
      assert forall i :: 0 < i < |ids| ==> ids[i] == ids[1..][i - 1];
      (if Resolves(ids[0], genreMap) then [genreMap[ids[0]]] else []) + rest
  }

  /** One id gives its name if it resolves, and nothing otherwise. */
  lemma GenreNamesOne(id: int, genreMap: map<int, string>)
    ensures GenreNames([id], genreMap) == if Resolves(id, genreMap) then [genreMap[id]] else []
  {
    assert [id][1..] == [];
  }

  /** The names of a concatenation of ids are the names of each part, in
      order: with `GenreNamesOne`, this fixes the names as the ids' names in
      the ids' order, unresolved ids dropped. */
  lemma {:induction false} GenreNamesAppend(a: seq<int>, b: seq<int>, genreMap: map<int, string>)
    ensures GenreNames(a + b, genreMap) == GenreNames(a, genreMap) + GenreNames(b, genreMap)
  {
    if |a| > 0 {
      assert (a + b)[0] == a[0];
      assert (a + b)[1..] == a[1..] + b;
      GenreNamesAppend(a[1..], b, genreMap);
    } else {
      assert a + b == b;
    }
  }

  /** When every id resolves, the names are exactly the ids' names in order. */
  lemma {:induction false} AllResolvedKeepOrder(ids: seq<int>, genreMap: map<int, string>)
    requires forall i :: 0 <= i < |ids| ==> Resolves(ids[i], genreMap)
    ensures |GenreNames(ids, genreMap)| == |ids|
    ensures forall i :: 0 <= i < |ids| ==> GenreNames(ids, genreMap)[i] == genreMap[ids[i]]
  {
    if |ids| > 0 {
      AllResolvedKeepOrder(ids[1..], genreMap);
    }
  }

  /** The card's names: a missing `genre_ids` counts as none. */
  function CardGenreNames(movie: Movie, genreMap: map<int, string>): seq<string> {
    GenreNames(movie.genreIds.OrElse([]), genreMap)
  }

  /** The genre line: the names joined by ", ", or "N/A" when none
      resolves; never empty. */
  function GenreLabel(movie: Movie, genreMap: map<int, string>): (text: string)
    ensures CardGenreNames(movie, genreMap) == [] ==> text == NoGenres
    ensures CardGenreNames(movie, genreMap) != [] ==> text == Join(CardGenreNames(movie, genreMap), GenreSeparator)
    ensures text != ""
  {
    var names := CardGenreNames(movie, genreMap);
    if |names| > 0 then
      JoinIsEmpty(names, GenreSeparator);
      Join(names, GenreSeparator)
    else NoGenres
  }

  /** The poster source: a `poster_path` that is not null, even "", is
      appended to the w500 base (a missing one as the text "undefined");
      only null gives the placeholder. */
  function PosterSrc(movie: Movie): (src: string)
    ensures src == PosterPlaceholder <==> movie.posterPath.Null?
    ensures movie.posterPath.Value? ==> src == PosterBase + movie.posterPath.value
    ensures movie.posterPath.Undefined? ==> src == PosterBase + "undefined"
  {
    var src := match movie.posterPath
      case Null => PosterPlaceholder
      case Undefined => PosterBase + "undefined"
      case Value(path) => PosterBase + path;
    assert movie.posterPath.Null? || (src[8] == 'i' && PosterPlaceholder[8] == 'v');
    src
  }

  /** The year line: `release_date.slice(0, 4)`, the first four characters,
      or all of a shorter date. A null or missing date makes `slice` throw
      and the card fail to render: None. */
  function Year(movie: Movie): (year: Option<string>)
    ensures year.Some? <==> movie.releaseDate.Value?
    ensures year.Some? ==> year.value <= movie.releaseDate.value
    ensures year.Some? ==> |year.value| == Min(4, |movie.releaseDate.value|)
  {
    match movie.releaseDate
    case Value(date) => Some(Slice(date, 4))
    case _ => None
  }

  const DetailPrefix := "/movie/"

  /** The app's `/movie/:id` route (movie-arc/src/App.tsx): the id segment
      of a path that is `DetailPrefix` followed by one non-empty segment.
      `LinkPath` builds the paths it matches. */
  function MatchDetailRoute(path: string): (id: Option<string>)
    ensures id.Some? ==> id.value != "" && '/' !in id.value && path == DetailPrefix + id.value
    ensures |path| > |DetailPrefix| && path[..|DetailPrefix|] == DetailPrefix && '/' !in path[|DetailPrefix|..] ==>
              id == Some(path[|DetailPrefix|..])
  {
    var n := |DetailPrefix|;
    if |path| > n && path[..n] == DetailPrefix && '/' !in path[n..] then
      assert path == path[..n] + path[n..];
      Some(path[n..])
    else None
  }

  /** The card's link: `/movie/` followed by the id in decimal, from which
      the id can be read back. */
  function LinkPath(movie: Movie): (path: string)
    ensures |path| > |DetailPrefix| && path[..|DetailPrefix|] == DetailPrefix
    ensures ParseDecimal(path[|DetailPrefix|..]) == Some(movie.id)
  {
    var digits := Decimal(movie.id);
    DecimalRoundTrip(movie.id);
    assert (DetailPrefix + digits)[|DetailPrefix|..] == digits;
    DetailPrefix + digits
  }
}

=== FILE: movie_details.dfy ===
/** The detail page (movie-arc/src/MovieDetails.tsx): the guarded fetch of
    one movie by the route's `id`, and the strings the page derives from
    the fetched movie. */
module MovieDetails {
  import opened Values
  import opened Strings
  import opened Tmdb

  const MissingIdMessage := "Missing movie id."
  const DetailsFailed := "Failed to load movie details"
  const NoDescription := "No description available."

  datatype DetailsState = DetailsState(movie: Option<MovieDetailsResponse>, loading: bool, error: Option<string>)

  /** The state once the effect has settled, and the URL it fetched, if any. */
  datatype DetailsStep = DetailsStep(state: DetailsState, request: Option<string>)

  function DetailUrl(id: string, key: string): string {
    ApiBase + "/movie/" + id + "?api_key=" + key
  }

  /** `fetchMovie`: a missing id is reported first, whether or not a key is
      set; then a missing key; only with both is the movie fetched. A
      delivered movie replaces the shown one and clears the error; a failure
      keeps the shown movie and reports; loading is over either way. */
  function FetchMovie(s: DetailsState, id: Option<string>, key: Option<string>, reply: Fetched<MovieDetailsResponse>): (r: DetailsStep)
    ensures !Truthy(id) ==> r == DetailsStep(s.(error := Some(MissingIdMessage)), None)
    ensures Truthy(id) && !Truthy(key) ==> r == DetailsStep(s.(error := Some(MissingKeyMessage)), None)
    ensures r.request.Some? <==> Truthy(id) && Truthy(key)
    ensures r.request.Some? ==> r.request == Some(DetailUrl(id.value, key.value)) && !r.state.loading
    ensures r.request.Some? ==> (r.state.error.None? <==> reply.Delivered?)
    ensures r.request.Some? && reply.Delivered? ==> r.state.movie == Some(reply.payload)
    ensures r.request.Some? && !reply.Delivered? ==> r.state.movie == s.movie
    ensures r.request.Some? && !reply.Delivered? ==> r.state.error == Some(reply.FailureMessage(DetailsFailed))
    ensures r.request.Some? && reply.NotOk? ==> r.state.error == Some(DetailsFailed)
  {
    if !Truthy(id) then DetailsStep(s.(error := Some(MissingIdMessage)), None)
    else if !Truthy(key) then DetailsStep(s.(error := Some(MissingKeyMessage)), None)
    else
      var url := DetailUrl(id.value, key.value);
      match reply
      case Delivered(movie) => DetailsStep(s.(movie := Some(movie), error := None, loading := false), Some(url))
      case _ => DetailsStep(s.(error := Some(reply.FailureMessage(DetailsFailed)), loading := false), Some(url))
  }

  /** The movie card is shown only when loading is over, no error is shown
      and a movie is held (`!loading && !error && movie`). */
  predicate ShowsMovie(s: DetailsState) {
    !s.loading && !Truthy(s.error) && s.movie.Some?
  }

  /** With an id and a key, a delivered movie is the one the page shows; a
      failure hides the movie behind its error unless the error's message is
      empty (an empty message is falsy, so the previous movie stays shown). */
  lemma DeliveredMovieIsShown(s: DetailsState, id: string, key: string, reply: Fetched<MovieDetailsResponse>)
    requires id != "" && key != ""
    ensures reply.Delivered? ==>
              ShowsMovie(FetchMovie(s, Some(id), Some(key), reply).state)
              && FetchMovie(s, Some(id), Some(key), reply).state.movie == Some(reply.payload)
    ensures !reply.Delivered? ==>
              (ShowsMovie(FetchMovie(s, Some(id), Some(key), reply).state)
               <==> reply.FailureMessage(DetailsFailed) == "" && s.movie.Some?)
  {
  }

  /** The backdrop: the w1280 image of a non-empty `backdrop_path`, none
      otherwise. */
  function BackdropUrl(movie: Option<MovieDetailsResponse>): (url: Option<string>)
    ensures url.Some? <==> movie.Some? && TruthyText(movie.value.backdropPath)
    ensures url.Some? ==> url.value == ImageBase + "/w1280" + movie.value.backdropPath.value
  {
    if movie.Some? && TruthyText(movie.value.backdropPath) then
      Some(ImageBase + "/w1280" + movie.value.backdropPath.value)
    else None
  }

  /** For the same path, there is a backdrop exactly when the poster is not
      the placeholder: both test the path's truthiness. */
  lemma BackdropIffPoster(movie: MovieDetailsResponse)
    requires movie.backdropPath == movie.posterPath
    ensures BackdropUrl(Some(movie)).Some? <==> PosterUrl(Some(movie)) != PosterPlaceholder
  {
  }

  /** The poster: the w500 image of a non-empty `poster_path`; null,
      missing and "" all give the placeholder. */
  function PosterUrl(movie: Option<MovieDetailsResponse>): (url: string)
    ensures url == PosterPlaceholder <==> !(movie.Some? && TruthyText(movie.value.posterPath))
    ensures movie.Some? && TruthyText(movie.value.posterPath) ==> url == ImageBase + "/w500" + movie.value.posterPath.value
  {
    if movie.Some? && TruthyText(movie.value.posterPath) then
      var url := ImageBase + "/w500" + movie.value.posterPath.value;
      assert url[8] == 'i' && PosterPlaceholder[8] == 'v';
      url
    else PosterPlaceholder
  }

  /** The names of the movie's genres, in order, empty names included. */
  function GenreNames(genres: seq<Genre>): (names: seq<string>)
    ensures |names| == |genres|
    ensures forall i :: 0 <= i < |genres| ==> names[i] == genres[i].name
  {
    seq(|genres|, i requires 0 <= i < |genres| => genres[i].name)
  }

  /** The genre line: "N/A" only when there is no movie or its `genres` is
      null or missing; a present list is joined with ", ", so an empty list
      gives "". */
  function GenreLabel(movie: Option<MovieDetailsResponse>): (text: string)
    ensures movie.None? || !movie.value.genres.Value? ==> text == NoGenres
    ensures movie.Some? && movie.value.genres.Value? ==> text == Join(GenreNames(movie.value.genres.value), GenreSeparator)
  {
    if movie.Some? && movie.value.genres.Value? then Join(GenreNames(movie.value.genres.value), GenreSeparator)
    else NoGenres
  }

  /** An empty genre list gives an empty genre line, not "N/A". */
  lemma EmptyGenreListGivesEmptyLine(movie: MovieDetailsResponse)
    requires movie.genres == Value([])
    ensures GenreLabel(Some(movie)) == ""
  {
    assert GenreNames([]) == [];
  }

  /** The year line: the first four characters of a non-empty
      `release_date`; "" when the date is empty, null or missing. */
  function Year(movie: Option<MovieDetailsResponse>): (year: string)
    ensures year != "" <==> movie.Some? && TruthyText(movie.value.releaseDate)
    ensures movie.Some? && TruthyText(movie.value.releaseDate) ==>
              year <= movie.value.releaseDate.value && |year| == Min(4, |movie.value.releaseDate.value|)
  {
    if movie.Some? && TruthyText(movie.value.releaseDate) then Slice(movie.value.releaseDate.value, 4)
    else ""
  }

  /** The overview paragraph: the overview, or a fixed sentence when it is
      empty, null or missing; never empty. */
  function Overview(movie: MovieDetailsResponse): (text: string)
    ensures text != ""
    ensures TruthyText(movie.overview) ==> text == movie.overview.value
    ensures !TruthyText(movie.overview) ==> text == NoDescription
  {
    if TruthyText(movie.overview) then movie.overview.value else NoDescription
  }

  /** The runtime badge `⏱ {runtime} min`, shown only for a runtime that is
      set and not 0. */
  function RuntimeBadge(movie: MovieDetailsResponse): (badge: Option<string>)
    ensures badge.Some? <==> TruthyNumber(movie.runtime)
    ensures badge.Some? ==> badge.value == "⏱ " + Decimal(movie.runtime.value) + " min"
  {
    if TruthyNumber(movie.runtime) then Some("⏱ " + Decimal(movie.runtime.value) + " min") else None
  }

  /** The number in the runtime badge reads back as the runtime. */
  lemma RuntimeBadgeReadsBack(movie: MovieDetailsResponse)
    requires TruthyNumber(movie.runtime)
    ensures var badge := RuntimeBadge(movie).value;
            |badge| > 6 && ParseDecimal(badge[2..|badge| - 4]) == Some(movie.runtime.value)
  {
    var digits := Decimal(movie.runtime.value);
    var badge := RuntimeBadge(movie).value;
    assert badge == "⏱ " + digits + " min";
    assert badge[2..|badge| - 4] == digits;
    DecimalRoundTrip(movie.runtime.value);
  }
}

=== FILE: proxy_home.dfy ===
/** The Home page of the proxied client (src/App.tsx): every request goes
    to the worker at the configured base URL (`VITE_PROXY_BASE`), the title
    encoded with `encodeURIComponent`. */
module ProxyHome {
  import opened Values
  import opened Strings
  import opened Tmdb
  import opened Home

  const MissingProxyMessage := "Proxy URL missing. Set VITE_PROXY_BASE to your worker URL."

  function PopularUrl(base: string): string {
    base + "?popular=1"
  }

  function SearchUrl(base: string, title: string, encode: string -> string): string {
    base + "?query=" + encode(title)
  }

  function GenresUrl(base: string): string {
    base + "?genres=1"
  }

  /** The URL `getMovies` fetches: the popular list for a title that is
      blank once trimmed, otherwise a search for the title as typed
      (untrimmed). */
  function MoviesUrl(base: string, title: string, encode: string -> string): (url: string)
    ensures IsBlank(title) ==> url == PopularUrl(base)
    ensures !IsBlank(title) ==> url == SearchUrl(base, title, encode)
  {
    if Trim(title) != "" then SearchUrl(base, title, encode) else PopularUrl(base)
  }

  /** `getMovies(title)`: without a base URL only the error is set and
      nothing is fetched; otherwise the chosen URL is fetched and the list
      loaded from the reply. */
  function GetMovies(s: HomeState, base: Option<string>, title: string, encode: string -> string, reply: Fetched<MoviePage>): (r: Step)
    ensures !Truthy(base) ==> r.request.None? && r.state == s.(error := Some(MissingProxyMessage))
    ensures Truthy(base) ==> r.request == Some(MoviesUrl(base.value, title, encode)) && !r.state.loading
    ensures Truthy(base) ==> (r.state.error.None? <==> reply.Delivered?)
    ensures Truthy(base) && reply.Delivered? ==> r.state.movies == reply.payload.results.OrElse([])
    ensures Truthy(base) && !reply.Delivered? ==> r.state.movies == s.movies
    ensures Truthy(base) && reply.NotOk? ==> r.state.error == Some(MoviesFailed)
  {
    if !Truthy(base) then Refuse(s, MissingProxyMessage)
    else LoadMovies(s, MoviesUrl(base.value, title, encode), reply, MoviesFailed)
  }

  /** `searchMovies(title)`: the same guard; the search URL is used for
      every title, blank ones included. */
  function SearchMovies(s: HomeState, base: Option<string>, title: string, encode: string -> string, reply: Fetched<MoviePage>): (r: Step)
    ensures !Truthy(base) ==> r.request.None? && r.state == s.(error := Some(MissingProxyMessage))
    ensures Truthy(base) ==> r.request == Some(SearchUrl(base.value, title, encode)) && !r.state.loading
    ensures Truthy(base) ==> (r.state.error.None? <==> reply.Delivered?)
    ensures Truthy(base) && reply.Delivered? ==> r.state.movies == reply.payload.results.OrElse([])
    ensures Truthy(base) && !reply.Delivered? ==> r.state.movies == s.movies
    ensures Truthy(base) && reply.NotOk? ==> r.state.error == Some(SearchFailed)
  {
    if !Truthy(base) then Refuse(s, MissingProxyMessage)
    else LoadMovies(s, SearchUrl(base.value, title, encode), reply, SearchFailed)
  }

  /** `fetchGenres()`: without a base URL nothing at all happens. */
  function FetchGenres(s: HomeState, base: Option<string>, cache: Option<string>, json: JsonCodec, reply: Fetched<GenreList>): (r: GenreStep)
    ensures !Truthy(base) ==> r == GenreStep(s, cache, None)
    ensures Truthy(base) ==> (r.request.None? <==> CacheHit(cache, json))
    ensures Truthy(base) && r.request.Some? ==> r.request == Some(GenresUrl(base.value))
    ensures Truthy(base) && !CacheHit(cache, json) && reply.NotOk? ==> r.state.error == Some(GenresFailed)
  {
    if !Truthy(base) then GenreStep(s, cache, None)
    else LoadGenres(s, cache, json, GenresUrl(base.value), reply)
  }

  /** For a title that is not blank, the initial load and a search fetch
      the same URL. */
  lemma GetMoviesSearchesLikeSearchMovies(s: HomeState, base: Option<string>, title: string, encode: string -> string, reply: Fetched<MoviePage>)
    requires !IsBlank(title)
    ensures GetMovies(s, base, title, encode, reply).request == SearchMovies(s, base, title, encode, reply).request
  {
  }
}

=== FILE: strings.dfy ===
/** The JavaScript string operations the UI and the worker rely on:
    `indexOf`, `split`, `join`, `slice(0, n)`, `trim` and the decimal
    rendering of an integer in a template literal. */
module Strings {
  import opened Values

  /** `s.indexOf(c)`, with -1 as None. */
  function IndexOf(s: string, c: char): (r: Option<nat>)
    ensures r.None? <==> c !in s
    ensures r.Some? ==> r.value < |s| && s[r.value] == c && c !in s[..r.value]
  {
    if |s| == 0 then None
    else if s[0] == c then Some(0)
    else
      match IndexOf(s[1..], c)
      case None => None
      case Some(i) =>
        assert s[..i + 1] == [s[0]] + s[1..][..i];
        Some(i + 1)
  }

  /** The first occurrence of `c` in `a + [c] + b` is the one just after `a`
      when `a` does not hold `c`. */
  lemma IndexOfAfter(a: string, c: char, b: string)
    requires c !in a
    ensures IndexOf(a + [c] + b, c) == Some(|a|)
  {
    var s := a + [c] + b;
    assert s[|a|] == c;
    assert s[..|a|] == a;
  }

  /** `s.split(sep)` for a one-character separator. */
  function Split(s: string, sep: char): (parts: seq<string>)
    ensures |parts| >= 1
    ensures forall i :: 0 <= i < |parts| ==> sep !in parts[i]
    decreases |s|
  {
    match IndexOf(s, sep)
    case None => [s]
    case Some(i) => [s[..i]] + Split(s[i + 1..], sep)
  }

  /** `parts.join(sep)`. */
  function Join(parts: seq<string>, sep: string): string
  {
    if |parts| == 0 then ""
    else if |parts| == 1 then parts[0]
    else parts[0] + sep + Join(parts[1..], sep)
  }

  /** Joining with a non-empty separator gives "" only for no parts or one
      empty part. */
  lemma {:induction false} JoinIsEmpty(parts: seq<string>, sep: string)
    requires sep != ""
    ensures Join(parts, sep) == "" <==> parts == [] || parts == [""]
  {
    if |parts| > 1 {
      assert |Join(parts, sep)| >= |sep|;
    }
  }

  lemma JoinCons(x: string, rest: seq<string>, sep: string)
    requires |rest| >= 1
    ensures Join([x] + rest, sep) == x + sep + Join(rest, sep)
  {
    assert ([x] + rest)[1..] == rest;
  }

  /** Splitting and joining on the same character are inverse: joining the
      pieces of a split restores the string. */
  lemma {:induction false} JoinSplit(s: string, sep: char)
    ensures Join(Split(s, sep), [sep]) == s
    decreases |s|
  {
    match IndexOf(s, sep)
    case None =>
    case Some(i) =>
      var rest := s[i + 1..];
      assert Split(s, sep) == [s[..i]] + Split(rest, sep);
      JoinCons(s[..i], Split(rest, sep), [sep]);
      JoinSplit(rest, sep);
      assert s == s[..i] + [sep] + rest;
  }

  /** ... and splitting a join of pieces free of the separator gives the
      pieces back. */
  lemma {:induction false} SplitJoin(parts: seq<string>, sep: char)
    requires |parts| >= 1
    requires forall i :: 0 <= i < |parts| ==> sep !in parts[i]
    ensures Split(Join(parts, [sep]), sep) == parts
    decreases |parts|
  {
    if |parts| > 1 {
      var head, tail := parts[0], Join(parts[1..], [sep]);
      var s := head + [sep] + tail;
      assert parts == [head] + parts[1..];
      JoinCons(head, parts[1..], [sep]);
      assert Join(parts, [sep]) == s;
      IndexOfAfter(head, sep, tail);
      assert s[..|head|] == head;
      assert s[|head| + 1..] == tail;
      assert Split(s, sep) == [head] + Split(tail, sep);
      SplitJoin(parts[1..], sep);
    }
  }

  /** No character before the first occurrence is `c`. */
  lemma IndexOfIsFirst(s: string, c: char, k: nat)
    requires IndexOf(s, c).Some? && k < IndexOf(s, c).value
    ensures s[k] != c
  {
    assert s[k] == s[..IndexOf(s, c).value][k];
  }

  /** Extending a string on the right keeps its first occurrence of `c`. */
  lemma IndexOfExtended(a: string, c: char, t: string)
    requires IndexOf(a, c).Some?
    ensures IndexOf(a + t, c) == IndexOf(a, c)
  {
    var i := IndexOf(a, c).value;
    var s := a + t;
    assert s[..i] == a[..i] && s[i] == c;
    var j := IndexOf(s, c).value;
    if i < j {
      IndexOfIsFirst(s, c, i);
      assert false;
    } else if j < i {
      IndexOfIsFirst(a, c, j);
      assert false;
    }
  }

  /** One step of `Split` at the first separator. */
  lemma SplitAt(s: string, sep: char, i: nat)
    requires IndexOf(s, sep) == Some(i)
    ensures Split(s, sep) == [s[..i]] + Split(s[i + 1..], sep)
  {
  }

  /** Splitting at a separator that follows a separator-free prefix. */
  lemma SplitAfterFree(a: string, sep: char, b: string)
    requires sep !in a
    ensures Split(a, sep) == [a]
    ensures Split(a + [sep] + b, sep) == [a] + Split(b, sep)
  {
    var s := a + [sep] + b;
    IndexOfAfter(a, sep, b);
    assert s[..|a|] == a && s[|a| + 1..] == b;
    SplitAt(s, sep, |a|);
  }

  /** Splitting at the first separator of a prefix that holds one. */
  lemma SplitInside(a: string, sep: char, b: string, i: nat)
    requires IndexOf(a, sep) == Some(i)
    ensures Split(a, sep) == [a[..i]] + Split(a[i + 1..], sep)
    ensures Split(a + [sep] + b, sep) == [a[..i]] + Split(a[i + 1..] + [sep] + b, sep)
  {
    var s := a + [sep] + b;
    IndexOfExtended(a, sep, [sep] + b);
    assert s == a + ([sep] + b);
    assert s[..i] == a[..i] && s[i + 1..] == a[i + 1..] + [sep] + b;
    SplitAt(a, sep, i);
    SplitAt(s, sep, i);
  }

  /** Regrouping three lists of pieces, with the lists named so that no
      concatenation of strings is in sight. */
  lemma Regroup(whole: seq<string>, tail: seq<string>, left: seq<string>, x: seq<string>, y: seq<string>, z: seq<string>)
    requires whole == x + tail && tail == y + z && left == x + y
    ensures whole == left + z
  {
  }

  /** Splitting around one occurrence of the separator splits each side
      on its own. */
  lemma {:induction false} SplitAround(a: string, sep: char, b: string)
    ensures Split(a + [sep] + b, sep) == Split(a, sep) + Split(b, sep)
    decreases |a|
  {
    if sep !in a {
      SplitAfterFree(a, sep, b);
    } else {
      var i := IndexOf(a, sep).value;
      var rest := a[i + 1..];
      SplitInside(a, sep, b, i);
      SplitAround(rest, sep, b);
      Regroup(Split(a + [sep] + b, sep), Split(rest + [sep] + b, sep), Split(a, sep), [a[..i]], Split(rest, sep), Split(b, sep));
    }
  }

  /** `s.slice(0, n)` for a non-negative `n`. */
  function Slice(s: string, n: nat): (r: string)
    ensures |r| == Min(n, |s|)
    ensures r <= s
  {
    if |s| < n then s else s[..n]
  }

  function Min(a: int, b: int): int {
    if a < b then a else b
  }

  /** The characters `String.prototype.trim` removes: the ECMAScript
      WhiteSpace (including every Zs space separator) and LineTerminator
      code points. */
  predicate IsJsWhitespace(c: char) {
    || c == '\t' || c == '\n' || c == '\U{000B}' || c == '\U{000C}' || c == '\r'
    || c == ' ' || c == '\U{00A0}' || c == '\U{1680}'
    || ('\U{2000}' <= c <= '\U{200A}')
    || c == '\U{2028}' || c == '\U{2029}' || c == '\U{202F}' || c == '\U{205F}'
    || c == '\U{3000}' || c == '\U{FEFF}'
  }

  /** Every character of `s` is one `trim` removes. */
  predicate IsBlank(s: string) {
    forall i :: 0 <= i < |s| ==> IsJsWhitespace(s[i])
  }

  function TrimStart(s: string): (r: string)
    ensures r == "" <==> IsBlank(s)
    ensures r != "" ==> !IsJsWhitespace(r[0])
    ensures |r| <= |s| && r == s[|s| - |r|..]
  {
    if |s| > 0 && IsJsWhitespace(s[0]) then TrimStart(s[1..]) else s
  }

  function TrimEnd(s: string): (r: string)
    ensures r == "" <==> IsBlank(s)
    ensures r <= s
  {
    if |s| > 0 && IsJsWhitespace(s[|s| - 1]) then TrimEnd(s[..|s| - 1]) else s
  }

  /** `s.trim()`: the result is empty exactly when `s` is blank. */
  function Trim(s: string): (r: string)
    ensures r == "" <==> IsBlank(s)
  {
    TrimEnd(TrimStart(s))
  }

  predicate IsDigit(c: char) {
    '0' <= c <= '9'
  }

  predicate AllDigits(s: string) {
    forall i :: 0 <= i < |s| ==> IsDigit(s[i])
  }

  function DigitChar(d: nat): (c: char)
    requires d < 10
    ensures IsDigit(c)
    ensures c as int - '0' as int == d
  {
    ('0' as int + d) as char
  }

  /** Decimal digits of a natural number, most significant first, no
      leading zeros. */
  function NatDigits(n: nat): (r: string)
    ensures |r| > 0
    ensures AllDigits(r)
    ensures r[0] == '0' <==> n == 0
    decreases n
  {
    if n < 10 then [DigitChar(n)] else NatDigits(n / 10) + [DigitChar(n % 10)]
  }

  /** How JavaScript renders an integer-valued number in a template literal
      (for magnitudes below 10^21). */
  function Decimal(n: int): (r: string)
    ensures |r| > 0
    ensures '/' !in r
    ensures r[0] == '-' <==> n < 0
    ensures n < 0 ==> |r| > 1 && AllDigits(r[1..]) && r[1] != '0'
    ensures n >= 0 ==> AllDigits(r) && (r[0] == '0' <==> n == 0)
    ensures r[0] == '0' ==> r == "0"
  {
    if n < 0 then "-" + NatDigits(-n) else NatDigits(n)
  }

  /** The value of a string of decimal digits. */
  function ParseNat(s: string): nat
    requires AllDigits(s)
  {
    if |s| == 0 then 0
    else ParseNat(s[..|s| - 1]) * 10 + (s[|s| - 1] as int - '0' as int)
  }

  /** The integer a decimal rendering stands for, if it is one. */
  function ParseDecimal(s: string): Option<int>
  {
    if |s| > 0 && AllDigits(s) then Some(ParseNat(s))
    else if |s| > 1 && s[0] == '-' && AllDigits(s[1..]) then Some(-(ParseNat(s[1..]) as int))
    else None
  }

  lemma {:induction false} ParseNatDigits(n: nat)
    ensures ParseNat(NatDigits(n)) == n
    decreases n
  {
    if n >= 10 {
      var s := NatDigits(n);
      assert s[..|s| - 1] == NatDigits(n / 10);
      ParseNatDigits(n / 10);
    }
  }

  /** Reading back a rendered integer gives the integer. */
  lemma DecimalRoundTrip(n: int)
    ensures ParseDecimal(Decimal(n)) == Some(n)
  {
    if n < 0 {
      var s := Decimal(n);
      assert s[1..] == NatDigits(-n);
      assert !IsDigit(s[0]);
      ParseNatDigits(-n);
    } else {
      ParseNatDigits(n);
    }
  }

  /** Distinct integers render differently. */
  lemma DecimalInjective(a: int, b: int)
    ensures Decimal(a) == Decimal(b) ==> a == b
  {
    DecimalRoundTrip(a);
    DecimalRoundTrip(b);
  }
}

=== FILE: tmdb.dfy ===
/** The TMDB payloads the UI reads, as far as the UI reads them, and the
    fate of one browser `fetch` followed by `response.json()`. */
module Tmdb {
  import opened Values

  /** The TMDB API root every file writes out. */
  const ApiBase := "https://api.themoviedb.org/3"

  /** The TMDB image root and the placeholder shown for a missing poster. */
  const ImageBase := "https://image.tmdb.org/t/p"
  const PosterPlaceholder := "https://via.placeholder.com/400x600"

  /** The genre line's separator, and the text both pages may show when
      there are no genres. */
  const GenreSeparator := ", "
  const NoGenres := "N/A"

  /** The fixed part of the search endpoint holds no '?' or '#'. */
  lemma SearchBaseIsPlain()
    ensures '?' !in ApiBase + "/search/movie" && '#' !in ApiBase + "/search/movie"
  {
  }

  /** The message of the direct-to-TMDB pages when no browser key is set. */
  const MissingKeyMessage := "API key missing. Add VITE_TMDB_API_KEY to your .env file."

  /** One search or popular result (the `Movie` interface of MovieCard).
      Any field of the JSON may be null or missing; the id and title are
      only carried. `vote_average` is only formatted for display and is
      left out. */
  datatype Movie = Movie(
    id: int,
    title: string,
    posterPath: Nullable<string>,
    releaseDate: Nullable<string>,
    genreIds: Nullable<seq<int>>)

  datatype Genre = Genre(id: int, name: string)

  /** The body of a popular or search answer: `{ results }`. */
  datatype MoviePage = MoviePage(results: Nullable<seq<Movie>>)

  /** The body of a genre-list answer: `{ genres }`. */
  datatype GenreList = GenreList(genres: Nullable<seq<Genre>>)

  /** The body of a detail answer (`MovieDetailsResponse`), every field as
      JavaScript may find it; `vote_average` is left out. */
  datatype MovieDetailsResponse = MovieDetailsResponse(
    id: int,
    title: string,
    overview: Nullable<string>,
    releaseDate: Nullable<string>,
    runtime: Nullable<int>,
    backdropPath: Nullable<string>,
    posterPath: Nullable<string>,
    genres: Nullable<seq<Genre>>,
    tagline: Nullable<string>)

  /** How one request ends: `fetch` rejects (with the browser's message),
      the status is not ok, the body is not JSON (with the parser's
      message), or the parsed body arrives. */
  datatype Fetched<T> =
    | NetworkFailure(message: string)
    | NotOk
    | Malformed(message: string)
    | Delivered(payload: T)
  {
    /** The message `err.message` holds in the `catch`, given the message
        the code throws for a status that is not ok. */
    function FailureMessage(notOkMessage: string): string
      requires !Delivered?
    {
      match this
      case NetworkFailure(m) => m
      case NotOk => notOkMessage
      case Malformed(m) => m
    }
  }
}

=== FILE: uri.dfy ===
/** URLs as the worker reads them: the query of a `URL` object and the
    application/x-www-form-urlencoded parsing behind `url.searchParams`.
    Percent-encoding (`encodeURIComponent`) and percent-decoding are library
    code and enter as the two fields of a `UriCodec`, constrained only by
    the laws the model needs. */
module Uri {
  import opened Values
  import opened Strings

  /** `encodeURIComponent`, and the decoding `URLSearchParams` applies to
      every name and value ('+' read as a space, then percent-decoding). */
  datatype UriCodec = UriCodec(encode: string -> string, decode: string -> string)

  /** Text decoding leaves alone: no percent escape and no '+'. */
  predicate Plain(s: string) {
    '%' !in s && '+' !in s
  }

  /** The laws of the library pair the model relies on: the encoding of ""
      is "", an encoding never holds the query separators '&' and '#',
      decoding undoes encoding, and plain text decodes to itself. Every
      Dafny string is a sequence of Unicode scalar values, so the lone
      surrogates on which `encodeURIComponent` throws cannot occur. */
  ghost predicate Lawful(c: UriCodec) {
    && c.encode("") == ""
    && (forall s :: '&' !in c.encode(s) && '#' !in c.encode(s))
    && (forall s :: c.decode(c.encode(s)) == s)
    && (forall s :: Plain(s) ==> c.decode(s) == s)
  }

  /** A parameter name that stays inside the query and parses and decodes
      as itself. */
  predicate SafeName(name: string) {
    Plain(name) && '=' !in name && '&' !in name && '#' !in name
  }

  /** A key that stays inside its parameter and decodes as itself. */
  predicate SafeKey(key: string) {
    Plain(key) && '&' !in key && '#' !in key
  }

  /** The parameter names the programs write literally are safe. Each
      literal has a lemma of its own so that the fact is established once,
      in a small context, and cited where a URL built with it is read back;
      unfolding it inside a larger proof is costly. */
  lemma ApiKeyIsSafe()
    ensures SafeName("api_key")
  {
  }

  lemma QueryIsSafe()
    ensures SafeName("query")
  {
  }

  lemma PopularIsSafe()
    ensures SafeName("popular")
  {
  }

  lemma GenresIsSafe()
    ensures SafeName("genres")
  {
  }

  /** The query of an absolute URL: the text after the first '?', once the
      fragment (from the first '#') is cut off; "" when there is no '?'. */
  function QueryOf(url: string): (query: string)
    ensures '#' !in query
    ensures '?' in url || query == ""
  {
    var unfragmented := match IndexOf(url, '#')
      case None => url
      case Some(j) => url[..j];
    match IndexOf(unfragmented, '?')
    case None => ""
    case Some(i) =>
      assert forall k :: i + 1 <= k < |unfragmented| ==> unfragmented[i + 1..][k - i - 1] == unfragmented[k];
      unfragmented[i + 1..]
  }

  type Param = (string, string)

  /** One '&'-separated piece: the name up to its first '=', the value after
      it ("" when there is no '='), both decoded. */
  function PairOf(piece: string, decode: string -> string): Param {
    match IndexOf(piece, '=')
    case None => (decode(piece), "")
    case Some(i) => (decode(piece[..i]), decode(piece[i + 1..]))
  }

  /** The pairs of the non-empty pieces, in order. */
  function PairsOf(pieces: seq<string>, decode: string -> string): (r: seq<Param>)
    ensures |r| <= |pieces|
  {
    if |pieces| == 0 then []
    else (if pieces[0] == "" then [] else [PairOf(pieces[0], decode)]) + PairsOf(pieces[1..], decode)
  }

  /** The application/x-www-form-urlencoded parser. */
  function FormDecode(query: string, decode: string -> string): seq<Param> {
    PairsOf(Split(query, '&'), decode)
  }

  /** `new URL(url).searchParams` as a list of pairs. */
  function SearchParams(url: string, decode: string -> string): seq<Param> {
    FormDecode(QueryOf(url), decode)
  }

  /** `params.get(name)`: the value of the first pair with that name. */
  function Get(params: seq<Param>, name: string): (r: Option<string>)
    ensures r.None? <==> forall i :: 0 <= i < |params| ==> params[i].0 != name
  {
    if |params| == 0 then None
    else if params[0].0 == name then Some(params[0].1)
    else Get(params[1..], name)
  }

  /** `get` passes over a leading pair with another name. */
  lemma GetSkips(p: Param, params: seq<Param>, name: string)
    requires p.0 != name
    ensures Get([p] + params, name) == Get(params, name)
  {
    assert ([p] + params)[1..] == params;
  }

  /** `get` finds a leading pair with the name. */
  lemma GetFinds(p: Param, params: seq<Param>)
    ensures Get([p] + params, p.0) == Some(p.1)
  {
  }

  /** A URL built as `base + "?" + query`, with a base that holds neither
      '?' nor '#', exposes `query` as its query. */
  lemma QueryOfAppended(base: string, query: string)
    requires '?' !in base && '#' !in base && '#' !in query
    ensures QueryOf(base + "?" + query) == query
  {
    var url := base + "?" + query;
    assert url == base + ['?'] + query;
    assert '#' !in url;
    IndexOfAfter(base, '?', query);
    assert url[|base| + 1..] == query;
  }

  /** A fragment after the query is cut off: `base + "?" + query + "#" +
      fragment` has the same query as `base + "?" + query`. */
  lemma QueryOfFragment(base: string, query: string, fragment: string)
    requires '?' !in base && '#' !in base && '#' !in query
    ensures QueryOf(base + "?" + query + "#" + fragment) == query
  {
    var front := base + "?" + query;
    var url := front + "#" + fragment;
    assert '#' !in front;
    IndexOfAfter(front, '#', fragment);
    assert url[..|front|] == front;
    QueryOfAppended(base, query);
    IndexOfAfter(base, '?', query);
    assert front[|base| + 1..] == query;
  }

  /** `name=value` parses back to its one pair. */
  lemma PairOfAssignment(name: string, value: string, c: UriCodec)
    requires Lawful(c)
    requires Plain(name) && '=' !in name
    ensures PairOf(name + "=" + value, c.decode) == (name, c.decode(value))
  {
    var piece := name + "=" + value;
    assert piece == name + ['='] + value;
    IndexOfAfter(name, '=', value);
    assert piece[..|name|] == name;
    assert piece[|name| + 1..] == value;
  }

  /** A query of one assignment parses to that one pair. */
  lemma FormDecodeOne(name: string, value: string, c: UriCodec)
    requires Lawful(c)
    requires SafeName(name) && '&' !in value
    ensures FormDecode(name + "=" + value, c.decode) == [(name, c.decode(value))]
  {
    var piece := name + "=" + value;
    assert '&' !in piece;
    assert piece[|name|] == '=';
    PairOfAssignment(name, value, c);
  }

  lemma {:induction false} PairsOfAppend(x: seq<string>, y: seq<string>, decode: string -> string)
    ensures PairsOf(x + y, decode) == PairsOf(x, decode) + PairsOf(y, decode)
    decreases |x|
  {
    if |x| > 0 {
      assert (x + y)[1..] == x[1..] + y;
      PairsOfAppend(x[1..], y, decode);
    } else {
      assert x + y == y;
    }
  }

  /** The pairs of `a + "&" + b` are the pairs of `a` followed by those of
      `b`. */
  lemma FormDecodeAppend(a: string, b: string, decode: string -> string)
    ensures FormDecode(a + "&" + b, decode) == FormDecode(a, decode) + FormDecode(b, decode)
  {
    assert a + "&" + b == a + ['&'] + b;
    SplitAround(a, '&', b);
    PairsOfAppend(Split(a, '&'), Split(b, '&'), decode);
  }

  /** An assignment followed by '&' and more text parses to its pair
      followed by the pairs of the rest. */
  lemma FormDecodeCut(name: string, value: string, rest: string, c: UriCodec)
    requires Lawful(c)
    requires SafeName(name) && '&' !in value
    ensures FormDecode(name + "=" + (value + "&" + rest), c.decode)
         == [(name, c.decode(value))] + FormDecode(rest, c.decode)
  {
    assert name + "=" + (value + "&" + rest) == (name + "=" + value) + "&" + rest;
    FormDecodeAppend(name + "=" + value, rest, c.decode);
    FormDecodeOne(name, value, c);
  }

  /** A query of two assignments joined by '&' parses to the two pairs, in
      order. */
  lemma FormDecodeTwo(n1: string, v1: string, n2: string, v2: string, c: UriCodec)
    requires Lawful(c)
    requires SafeName(n1) && '&' !in v1
    requires SafeName(n2) && '&' !in v2
    ensures FormDecode(n1 + "=" + v1 + "&" + n2 + "=" + v2, c.decode)
         == [(n1, c.decode(v1)), (n2, c.decode(v2))]
  {
    var p1, p2 := n1 + "=" + v1, n2 + "=" + v2;
    assert n1 + "=" + v1 + "&" + n2 + "=" + v2 == p1 + "&" + p2;
    FormDecodeAppend(p1, p2, c.decode);
    FormDecodeOne(n1, v1, c);
    FormDecodeOne(n2, v2, c);
  }
}

=== FILE: values.dfy ===
/** JavaScript values as the worker and the UI see them: optional values,
    JSON fields that may be null or missing, and the truthiness tests the
    code applies to them. */
module Values {

  /** A value that may be absent (an unset setting, a missing query parameter). */
  datatype Option<+T> = None | Some(value: T) {

    /** `x ?? default`, `x || default` for a value that cannot itself be falsy */
    function GetOr(default: T): T {
      match this
      case Some(v) => v
      case None => default
    }
  }

  /** A JSON field: `null`, missing (`undefined`), or present. */
  datatype Nullable<+T> = Null | Undefined | Value(value: T) {

    /** `x ?? default`: both `null` and `undefined` fall back. */
    function OrElse(default: T): T {
      match this
      case Value(v) => v
      case _ => default
    }
  }

  /** `!!s` for a string that may be undefined: undefined and "" are falsy. */
  predicate Truthy(s: Option<string>) {
    s.Some? && s.value != ""
  }

  /** `!!s` for a JSON string field: null, undefined and "" are falsy. */
  predicate TruthyText(s: Nullable<string>) {
    s.Value? && s.value != ""
  }

  /** `!!n` for a JSON number field; 0 is falsy (NaN is not modelled). */
  predicate TruthyNumber(n: Nullable<int>) {
    n.Value? && n.value != 0
  }
}

=== FILE: worker.dfy ===
/** The proxy worker (worker/index.js): one `fetch` handler that answers a
    CORS preflight, refuses to run without the server's TMDB key, demands an
    `id` or a `query` parameter, forwards to the TMDB detail or search
    endpoint with the key attached, and relays TMDB's answer.

    The handler is split into the decision it takes from the request
    (`Decide`, `Dispatch`) and the relaying of the upstream reply (`Relay`);
    `Handle` composes them. The outbound `fetch` is not modelled: its reply
    is an input. An answer the handler fails to build because the `Response`
    constructor throws is None. */
module Worker {
  import opened Values
  import Uri
  import Tmdb

  type Header = (string, string)

  /** The three CORS headers every answer carries. */
  const CorsHeaders: seq<Header> := [
    ("Access-Control-Allow-Origin", "*"),
    ("Access-Control-Allow-Methods", "GET, OPTIONS"),
    ("Access-Control-Allow-Headers", "Content-Type")
  ]

  const JsonHeaders: seq<Header> := [
    ("Content-Type", "application/json"),
    ("Cache-Control", "public, max-age=300")
  ]

  /** The header of every upstream request. */
  const AcceptJson: seq<Header> := [("Accept", "application/json")]

  const UpstreamRoot := Tmdb.ApiBase

  const KeyMissingBody := "Server key missing"
  const MissingParamsBody := "query or id required"
  const UpstreamErrorBody := "TMDB error"

  datatype Request = Request(verb: string, url: string)

  /** A `Response`: status, body (`null` is None) and headers in order.
      `new Response(body, { headers })` without a status means 200. */
  datatype Response = Response(status: int, body: Option<string>, headers: seq<Header>)

  /** The request the worker sends upstream. */
  datatype UpstreamCall = UpstreamCall(url: string, headers: seq<Header>)

  /** What TMDB answered: its status and its body text. */
  datatype UpstreamReply = UpstreamReply(status: int, body: string) {
    /** `Response.ok` */
    predicate Ok() {
      200 <= status <= 299
    }
  }

  /** Either an answer built without asking upstream, or the call to make. */
  datatype Decision = Reply(response: Response) | Forward(call: UpstreamCall)

  /** The five ways the handler can go. */
  datatype Route = Preflight | NoServerKey | MissingParams | Detail(id: string) | Search(term: string)

  /** The handler's rules read declaratively: each route with the whole
      condition under which it is taken, independent of the order in which
      the code tests them. `query` is the `query` parameter with absence read
      as "", `id` the `id` parameter, `key` the configured secret. */
  ghost predicate Applies(verb: string, query: string, id: Option<string>, key: Option<string>, route: Route) {
    match route
    case Preflight => verb == "OPTIONS"
    case NoServerKey => verb != "OPTIONS" && !Truthy(key)
    case MissingParams => verb != "OPTIONS" && Truthy(key) && query == "" && !Truthy(id)
    case Detail(i) => verb != "OPTIONS" && Truthy(key) && id == Some(i) && i != ""
    case Search(t) => verb != "OPTIONS" && Truthy(key) && !Truthy(id) && query != "" && t == query
  }

  /** The handler's tests in the code's order: OPTIONS, then the key, then
      the parameters, then `id` before `query`. The route taken is one the
      rules allow. */
  function RouteOf(verb: string, query: string, id: Option<string>, key: Option<string>): (r: Route)
    ensures Applies(verb, query, id, key, r)
  {
    if verb == "OPTIONS" then Preflight
    else if !Truthy(key) then NoServerKey
    else if query == "" && !Truthy(id) then MissingParams
    else if Truthy(id) then Detail(id.value)
    else Search(query)
  }

  /** Exactly one rule applies to every request, and it is the one the
      handler takes: the order of the tests never changes the outcome. */
  lemma RouteIsUnique(verb: string, query: string, id: Option<string>, key: Option<string>, route: Route)
    ensures Applies(verb, query, id, key, route) <==> route == RouteOf(verb, query, id, key)
  {
  }

  /** The detail endpoint for an `id`, inserted without encoding. */
  function DetailTarget(id: string, key: string): string {
    UpstreamRoot + "/movie/" + id + "?api_key=" + key
  }

  /** The search endpoint for a term, encoded with `encodeURIComponent`. */
  function SearchTarget(term: string, key: string, encode: string -> string): string {
    UpstreamRoot + "/search/movie?api_key=" + key + "&query=" + encode(term)
  }

  /** The decision the handler takes on already-extracted parameters. Every
      answer built here carries the CORS headers; a request goes upstream
      exactly when it is not a preflight, the key is set and an `id` or a
      `query` is given; the upstream URL always carries the key. */
  function Decide(verb: string, query: string, id: Option<string>, key: Option<string>, encode: string -> string): (d: Decision)
    ensures d.Reply? ==> d.response.headers == CorsHeaders
    ensures d.Forward? <==> verb != "OPTIONS" && Truthy(key) && (query != "" || Truthy(id))
    ensures d.Forward? ==> d.call.headers == AcceptJson
    ensures d.Forward? && Truthy(id) ==> d.call.url == DetailTarget(id.value, key.value)
    ensures d.Forward? && !Truthy(id) ==> d.call.url == SearchTarget(query, key.value, encode)
  {
    match RouteOf(verb, query, id, key)
    case Preflight => Reply(Response(200, None, CorsHeaders))
    case NoServerKey => Reply(Response(500, Some(KeyMissingBody), CorsHeaders))
    case MissingParams => Reply(Response(400, Some(MissingParamsBody), CorsHeaders))
    case Detail(i) => Forward(UpstreamCall(DetailTarget(i, key.value), AcceptJson))
    case Search(t) => Forward(UpstreamCall(SearchTarget(t, key.value, encode), AcceptJson))
  }

  /** The handler from the raw request: `query` and `id` are read from the
      URL's search parameters, an absent `query` counting as "". */
  function Dispatch(req: Request, key: Option<string>, codec: Uri.UriCodec): Decision {
    var params := Uri.SearchParams(req.url, codec.decode);
    Decide(req.verb, Uri.Get(params, "query").GetOr(""), Uri.Get(params, "id"), key, codec.encode)
  }

  /** Whether `new Response(body, { status })` throws, following the
      "initialize a response" steps of the WHATWG Fetch Standard: a status
      outside 200 to 599 is a RangeError, and a body given with a null body
      status (101, 103, 204, 205 or 304) is a TypeError. */
  predicate ConstructorThrows(status: int, withBody: bool) {
    !(200 <= status <= 599) || (withBody && status in {101, 103, 204, 205, 304})
  }

  /** The relayed answer: a failing upstream status is passed on with a fixed
      body and no upstream content; a success passes the upstream body on
      unchanged as cacheable JSON. Both carry the CORS headers. Passing a
      failing status on throws when the constructor refuses it with a body
      (304, or a status outside 200 to 599); then there is no answer. */
  function Relay(reply: UpstreamReply): (r: Option<Response>)
    ensures r.None? <==> !reply.Ok() && ConstructorThrows(reply.status, true)
    ensures r.Some? ==> |r.value.headers| >= |CorsHeaders| && r.value.headers[|r.value.headers| - |CorsHeaders|..] == CorsHeaders
    ensures r.Some? && !reply.Ok() ==> r.value.status == reply.status && r.value.body == Some(UpstreamErrorBody)
    ensures r.Some? && !reply.Ok() ==> r.value.headers == CorsHeaders
    ensures reply.Ok() ==> r.Some? && r.value.status == 200 && r.value.body == Some(reply.body)
    ensures reply.Ok() ==> r.Some? && r.value.headers == JsonHeaders + CorsHeaders
  {
    if !reply.Ok() then
      if ConstructorThrows(reply.status, true) then None
      else Some(Response(reply.status, Some(UpstreamErrorBody), CorsHeaders))
    else Some(Response(200, Some(reply.body), JsonHeaders + CorsHeaders))
  }

  /** Among the statuses an upstream answer can have (200 to 599), only 304
      makes the relay throw. */
  lemma RelayFailsOnlyOn304(reply: UpstreamReply)
    requires 200 <= reply.status <= 599
    ensures Relay(reply).None? <==> reply.status == 304
  {
  }

  /** The whole handler, given what upstream answers if it is asked. None is
      a handler that throws: only relaying a status the `Response`
      constructor refuses does. */
  function Handle(req: Request, key: Option<string>, codec: Uri.UriCodec, reply: UpstreamReply): (r: Option<Response>)
    ensures r.Some? ==> forall h :: h in CorsHeaders ==> h in r.value.headers
    ensures req.verb == "OPTIONS" ==> r == Some(Response(200, None, CorsHeaders))
    ensures r.None? <==> Dispatch(req, key, codec).Forward? && Relay(reply).None?
  {
    match Dispatch(req, key, codec)
    case Reply(response) => Some(response)
    case Forward(_) => Relay(reply)
  }

  /** A preflight succeeds even when the server has no key. */
  lemma PreflightNeedsNoKey(url: string, codec: Uri.UriCodec, reply: UpstreamReply)
    ensures Handle(Request("OPTIONS", url), None, codec, reply) == Some(Response(200, None, CorsHeaders))
  {
  }

  /** Without a key every other request gets 500, whatever its parameters,
      and nothing goes upstream. */
  lemma MissingKeyAnswers500(req: Request, key: Option<string>, codec: Uri.UriCodec)
    requires req.verb != "OPTIONS" && !Truthy(key)
    ensures Dispatch(req, key, codec) == Reply(Response(500, Some(KeyMissingBody), CorsHeaders))
  {
  }

  /** With the key set, a request with neither a non-empty `query` nor a
      non-empty `id` gets 400 and nothing goes upstream; any other
      parameter (`popular`, `genres`, ...) makes no difference. */
  lemma MissingParamsAnswer400(verb: string, query: string, id: Option<string>, key: Option<string>, encode: string -> string)
    requires verb != "OPTIONS" && Truthy(key)
    ensures Decide(verb, query, id, key, encode) == Reply(Response(400, Some(MissingParamsBody), CorsHeaders))
        <==> query == "" && !Truthy(id)
  {
  }

  /** A non-empty `id` wins over any `query`. */
  lemma IdWinsOverQuery(verb: string, q1: string, q2: string, id: string, key: Option<string>, encode: string -> string)
    requires verb != "OPTIONS" && Truthy(key) && id != ""
    ensures Decide(verb, q1, Some(id), key, encode) == Decide(verb, q2, Some(id), key, encode)
    ensures Decide(verb, q1, Some(id), key, encode).Forward?
  {
  }

  /** The key is never echoed: the answer depends on whether a key is set,
      not on its value. */
  lemma AnswerIgnoresKeyValue(req: Request, k1: string, k2: string, codec: Uri.UriCodec, reply: UpstreamReply)
    requires k1 != "" && k2 != ""
    ensures Handle(req, Some(k1), codec, reply) == Handle(req, Some(k2), codec, reply)
  {
  }

  /** TMDB reads back from a search target exactly the key and the search
      term: the term is encoded once by the worker and decoded once by
      TMDB's URL parser. */
  lemma SearchTargetRoundTrip(term: string, key: string, codec: Uri.UriCodec)
    requires Uri.Lawful(codec) && Uri.SafeKey(key)
    ensures Uri.SearchParams(SearchTarget(term, key, codec.encode), codec.decode)
         == [("api_key", key), ("query", term)]
  {
    var base := UpstreamRoot + "/search/movie";
    var encoded := codec.encode(term);
    var query := "api_key" + "=" + key + "&" + "query" + "=" + encoded;
    var url := SearchTarget(term, key, codec.encode);
    assert url == base + "?" + query;
    assert Uri.QueryOf(url) == query by {
      assert '#' !in encoded;
      Tmdb.SearchBaseIsPlain();
      Uri.QueryOfAppended(base, query);
    }
    assert Uri.FormDecode(query, codec.decode) == [("api_key", key), ("query", term)] by {
      assert '&' !in encoded;
      Uri.ApiKeyIsSafe(); Uri.QueryIsSafe();
      Uri.FormDecodeTwo("api_key", key, "query", encoded, codec);
    }
  }

  /** TMDB reads back the key from a detail target whose `id` holds no '?'
      or '#' (the worker does not encode the id, so one that does would
      move the query). */
  lemma DetailTargetRoundTrip(id: string, key: string, codec: Uri.UriCodec)
    requires Uri.Lawful(codec) && Uri.SafeKey(key)
    requires '?' !in id && '#' !in id
    ensures Uri.SearchParams(DetailTarget(id, key), codec.decode) == [("api_key", key)]
  {
    var base := UpstreamRoot + "/movie/" + id;
    var query := "api_key" + "=" + key;
    assert DetailTarget(id, key) == base + "?" + query;
    Uri.QueryOfAppended(base, query);
    Uri.ApiKeyIsSafe();
    Uri.FormDecodeOne("api_key", key, codec);
  }
}
